=== FILE: README.md ===
# 3D Launchpad light and pad core, in Dafny

This project models the core of a Unity launchpad: pads that a hand or a mouse
presses, and the light director that lights them.

- **Pad dispatcher.** A press stops any light-sequence loop the pad started. It then
  fans out every action entry of the pad's current profile and moves the profile
  cursor on, wrapping round.
- **Light director.** A Light action becomes a one-shot cue on the pad: wait out a
  delay, show a palette material, wait out a duration, then restore the pad's
  base material. A stay-on cue instead makes its material the new base. A State
  action starts a sequence loop that fires every step of an authored light
  state, waits for the longest step, and repeats while looping is on.
- **Pause clock.** Both pause-aware waits, a cue's delay and duration and a
  loop's wait for the pass length, are frozen while the pause clock is set. A
  pass whose length is 0 waits with a plain one-frame yield
  (`LightDirector.cs:122`), so such a loop keeps firing while paused; the model's
  `NextFrame` phase does the same. Setting the clock notifies the audio side
  only when its state actually changes.

Unity coroutines are written as explicit task records, and a host frame resumes
them:

- Each coroutine gets a fresh numeric handle.
- A running cue lives in `cues` and a running loop in `loops`, each under its handle.
- The director's two dictionaries, pad → cue coroutine and origin pad → loop
  coroutine, map indexes to handles. A handle may belong to a coroutine that has
  already finished, as in the source.
- `StartCoroutine` runs a body synchronously up to its first `yield`. So a cue
  with no delay lights its pad inside the `LightOneBySlot` call itself.
- A coroutine is first resumed in the frame after the one that started it. A
  press arrives in the input phase, before the frame's coroutines run, so the
  host frame resumes only the handles drawn before the frame began.
- Time is `real` seconds. A frame carries its delta time and whether the pause
  clock freezes it.
- Materials are opaque tokens, `Option<int>`, where `None` is a null material.

Modules, one per file:

- `PauseAware` (pause_aware.dfy): frames and the pause-aware wait.
- `Palette` (palette.dfy): `SafeGet`.
- `LightStates` (light_state.dfy): authored steps and the pass length.
- `PauseClock` (pause_clock.dfy): `SetPaused`.
- `Lights` (lights.dfy): the director's operations and coroutine bodies.
- `Scheduler` (scheduler.dfy): the director's invariant and its preservation.
- `Pads` (pads.dfy): `Press`, `RunAction` and the profile cursor.
- `PadSetup` (pad_setup.dfy): `Awake` and the pad-by-index table.
- `Audio` (audio.dfy) and `Wrappers` (wrappers.dfy): the audio events and `Option`.

Where the code is inconsistent with itself, the model follows what the code does:

- `LightDirector.cs:114` reads `s.stayOn`, but the `Step` struct in
  `LightStateSO.cs:6-11` declares no such field. The model's `Step` has a
  `stayOn` flag.
- `Pad.cs:95` calls `AudioHub.I.Transport`, which `AudioHub.cs` does not define.
  It is modelled as an abstract `TransportCommand` audio event.
- A press on a pad with no profiles still stops that pad's loop first
  (`Pad.cs:65` runs before the check at `Pad.cs:68`). `Press` does the same.
- The stay-on branch drops the pad's entry only when that entry holds a null
  handle (`LightDirector.cs:146-151`), and at that point it never does. An
  undelayed stay-on cue reaches the branch while `LightOneBySlot` is still
  running: line 73 has removed the old entry and line 84 has not yet stored the
  new one, so there is no entry to test. A delayed stay-on cue finds its own
  handle there, which is not null because the cue has already yielded. Either
  way a finished stay-on cue leaves an entry behind (for an undelayed one, a
  possibly null handle that `StartCoroutine` returned). The model keeps that
  stale entry as a handle of a coroutine that no longer runs. It is harmless:
  the next `LightOneBySlot` on the pad drops it and restores the base, just as
  the source does for a null or finished coroutine.

## Model

| member | source | states |
|---|---|---|
| PauseAware.StartWait | Assets/Scripts/LightDirector.cs:42-52 | A wait for `d <= 0` finishes without suspending. Otherwise the first frame's unpaused delta is already counted when it first suspends. |
| PauseAware.ResumeWait | Assets/Scripts/LightDirector.cs:45-52 | A resumed wait finishes exactly when its accumulator has reached the target. Otherwise it grows by the frame's delta, or not at all in a frozen frame. |
| PauseAware.DriveExact | Assets/Scripts/LightDirector.cs:42-54 | Across any run of frames, the wait is still pending exactly when every prefix's unpaused time stays below the target. It has then accumulated exactly the unpaused time. |
| PauseAware.CompletesWhenReached | Assets/Scripts/LightDirector.cs:45 | The wait finishes at the first resumption after the accumulator reaches the target, not earlier and not later. |
| PauseAware.FrozenFramesHold | Assets/Scripts/LightDirector.cs:48-51 | Frames frozen by the pause clock leave a pending wait exactly as it was: pause freezes progress without skipping any. |
| PauseAware.WaitOrPauseExact | Assets/Scripts/LightDirector.cs:42-54 | A whole `WaitOrPause(d)` from its start frame: `d <= 0` never suspends. Otherwise it is pending exactly while the unpaused time of the frames so far is below `d`. |
| PauseAware.WaitOrPause | Assets/Scripts/LightDirector.cs:42-54 | `WaitOrPause(d)` with `d <= 0` finishes without suspending. A wait still suspended after its start frame and `fs` holds exactly the unpaused time of those frames. |
| PauseAware.ElapsedPrefixMonotone | Assets/Scripts/LightDirector.cs:50 | Accumulated unpaused time never decreases from frame to frame. |
| Palette.DefaultPalette | Assets/Scripts/LightDirector.cs:23 | The palette is declared with nine slots, all null. |
| Palette.SafeGet | Assets/Scripts/LightDirector.cs:169-174 | Returns the slot's material when the slot is in range and not null. Otherwise it returns slot 0's material, or null when the palette is missing or empty. A material it returns always comes from the palette. |
| Palette.UnauthoredPaletteLightsNothing | Assets/Scripts/LightDirector.cs:23 | Until a slot is authored, every lookup, in range or not, gives a null material. What that means for a cue is `Lights.DefaultPaletteCueShowsNothing`. |
| LightStates.MaxEnd | Assets/Scripts/LightDirector.cs:100-106 | The pass length is at least 0 and at least every step's `delay + duration`, on the unclamped values. It is either 0 or the end of some step. |
| LightStates.AuthoredPassLength | Assets/Scripts/LightStateSO.cs:9-10 | A non-empty sequence of steps within their declared ranges lasts at least 0.01 s, so its loop waits on the pause-aware timer, never just one frame. |
| LightStates.TwoStepPassLength | Assets/Scripts/LightDirector.cs:103-106 | Steps of `0.5 s` and `0.2 s + 1.0 s` make a 1.2 s pass. |
| PauseClock.Initial | Assets/Scripts/PauseManager.cs:6 | The pause clock starts unpaused. |
| PauseClock.SetPaused | Assets/Scripts/PauseManager.cs:10-16 | Afterwards `isPaused` is the requested state. Setting the current state changes nothing and notifies nothing. A real change sends exactly one `SetGlobalPause(newState)`, and only when an audio hub exists. |
| PauseClock.FrameFor | Assets/Scripts/LightDirector.cs:48 | A frame is frozen exactly when a pause manager exists and is paused. |
| PauseClock.NotificationsAlternate | Assets/Scripts/PauseManager.cs:12-16 | Over any series of requests, the notifications alternate. The first differs from the initial state, the last equals the final state, and the final state is the last one requested. |
| Lights.Cancel | Assets/Scripts/LightDirector.cs:68-78 | Cancelling a pad's cue drops its entry and stops its coroutine. When the pad has a renderer and a base, it shows the base again at once; otherwise no pad changes at all. Nothing else changes, and a pad without an entry is left as it was. |
| Lights.Restore | Assets/Scripts/LightDirector.cs:160-165 | At the end of its duration a cue shows the pad's base material as it is then. It drops the pad's entry. With a base but no renderer, the coroutine fails at the assignment and nothing changes. |
| Lights.Proceed | Assets/Scripts/LightDirector.cs:137-158 | After its delay, a stay-on cue sets both the shown and the base material and ends, keeping its entry. Any other cue shows its material, if non-null, and suspends for its duration. Neither changes the base of an ordinary cue's pad. A null material that lights or rebases leaves every pad as it was, and a non-null one on a pad without a renderer changes nothing at all. |
| Lights.StartCue | Assets/Scripts/LightDirector.cs:132-135 | A positive delay suspends the new cue at once in a pause-aware wait that has already counted the start frame, changing nothing else. Otherwise the cue carries on as after its delay, within the same call. |
| Lights.LightOneBySlot | Assets/Scripts/LightDirector.cs:65-85 | An unknown pad changes nothing. Otherwise the old cue no longer runs, and the pad's only entry is the new cue's fresh handle. A delayed retrigger first shows the base. An undelayed cue shows its palette material at once, and a stay-on cue also makes it the base. A delayed cue, or an undelayed one whose slot gives null and that would light or rebase, changes the pads only as the cancellation does. The coroutine left under the new handle is exactly `Started`: this pad, the looked-up material, the duration and the stay-on flag, waiting out its delay or else its duration, with the call's frame already counted. Other pads, entries and all loops are untouched. An undelayed non-null cue on a pad without a renderer changes the pads only as the cancellation does. |
| Lights.DefaultPaletteCueShowsNothing | Assets/Scripts/LightDirector.cs:65-85 | With the unauthored palette, a cue that lights or rebases changes the pads only as cancelling the old cue does, and the coroutine it starts carries a null material, which `ResumeCue` never shows. |
| Lights.FollowHolding | Assets/Scripts/LightDirector.cs:157-165 | A lit cue resumed frame by frame runs exactly as long as its pause-aware duration (`Drive`), never changes its pad's base, and on ending shows the base as it is then. |
| Lights.FollowStayOn | Assets/Scripts/LightDirector.cs:133-151 | A delayed stay-on cue resumed frame by frame fires exactly when its pause-aware delay ends, and then its material is both the pad's base and its shown material. |
| Lights.StayOnRebases | Assets/Scripts/LightDirector.cs:132-165 | A stay-on cue with any delay fires exactly when `WaitOrPause(delay)` ends over the frames after it. After that, an ordinary undelayed cue on the pad stays lit exactly while `WaitOrPause(duration)` runs over the frames after it, and then falls back to the stay-on colour, not the original material. |
| Lights.StopStateLoop | Assets/Scripts/LightDirector.cs:57-62 | The origin's entry is gone and its loop no longer runs. A missing key is a no-op. Pads, cues and the pad → cue dictionary are untouched. |
| Lights.StepCall | Assets/Scripts/LightDirector.cs:108-114 | A sequence step is played with `max(0.01, duration)` and `max(0, delay)` on its own pad and slot. Values already in range pass through unchanged. |
| Lights.AuthoredStepUnclamped | Assets/Scripts/LightStateSO.cs:7-10 | A step within its declared ranges is played exactly as authored, from one of the nine palette slots. |
| Lights.FirePass | Assets/Scripts/LightDirector.cs:103-115 | A pass gives every targeted, known pad a cue entry drawn during the pass (`PassFired`). It leaves other pads, their entries, all loops and the palette alone, and alters or revives no older cue. |
| Lights.FirePassKeeps | Assets/Scripts/LightDirector.cs:104-115 | A pass stops no older cue except one that the entry of a pad it targets referred to (`PassKeeps`). |
| Lights.FirePassShows | Assets/Scripts/LightDirector.cs:104-115 | When handles were drawn in order, each known pad a pass targets ends with its entry on the last step on that pad, with `max(0.01, duration)`, `max(0, delay)`, its slot's palette material and its stay-on flag (`StepShown`). If that cue runs, it is exactly `Started` for the step. A delayed step's cue is still waiting out its delay. An ordinary step's cue is still running unless its non-null material met a pad with no renderer. An undelayed step whose material the pad can show shows it, and a stay-on one has also made it the base; such a stay-on cue has already finished within the pass (`PassShows`). |
| Lights.FirePassInOrder | Assets/Scripts/LightStateSO.cs:12 | Steps fire in index order: a pass over `a + b` is a pass over `a` followed by a pass over `b`. |
| Lights.RunPass | Assets/Scripts/LightDirector.cs:99-122 | A pass fires every step (`PassFired`): each targeted, known pad gets a cue drawn in the pass, and untargeted pads and entries are untouched. The loop then suspends on a pause-aware wait for the pass length when that is positive, and for exactly one frame otherwise. |
| Lights.RunPassCues | Assets/Scripts/LightDirector.cs:103-115 | A loop's pass leaves every known pad it targets as `FirePassShows` says for the last step on that pad: an ordinary step's cue running and lit (or waiting out its delay), an undelayed stay-on step's colour shown and made the base. It stops no cue of another pad (`PassCues`). |
| Lights.StartLoop | Assets/Scripts/LightDirector.cs:94-95 | A new loop runs under a fresh handle, which becomes the origin's entry, and its first pass fires at once (`PassFired`). |
| Lights.StartLoopCues | Assets/Scripts/LightDirector.cs:94-115 | The first pass of a new loop, run within the start call, leaves the pads it targets as `RunPassCues` says. |
| Lights.TriggerState | Assets/Scripts/LightDirector.cs:88-96 | A null asset or null steps is a no-op. Otherwise the origin's previous loop stops, one new loop running that asset is its only entry, and its first pass has fired within the call (`PassFired`). Other origins' entries are untouched. Every other loop, except the origin's old one, keeps running unchanged. |
| Lights.TriggerStateCues | Assets/Scripts/LightDirector.cs:88-115 | A playable trigger's synchronous first pass leaves the pads the asset's steps target as `RunPassCues` says, relative to the director before the call. |
| Lights.ResumeCue | Assets/Scripts/LightDirector.cs:132-166 | In a frozen frame a pending cue changes nothing. A pending wait only advances. At the end of the delay the cue lights its pad, or rebases it when stay-on. At the end of the duration it restores the current base and drops its entry. A cue with a null material that lights or rebases, or with a material but no renderer, leaves every pad as it was when its delay ends. The pad keeps its renderer, and only a stay-on cue whose delay ends changes the pad's base. |
| Lights.ResumeLoop | Assets/Scripts/LightDirector.cs:99-128 | In a frozen frame a pending loop changes nothing. When a pass is over, a looping state fires the next pass (`PassFired`) and suspends again. A non-looping one ends, removing itself and its origin's entry and nothing else. The handle counter is not moved by a loop that ends. |
| Lights.ResumeLoopCues | Assets/Scripts/LightDirector.cs:100-124 | The next pass of a looping state leaves the pads its steps target as `RunPassCues` says. |
| Lights.Resume | Assets/Scripts/LightDirector.cs:99-166 | A handle that runs nothing is skipped. Resuming one coroutine neither stops nor alters any other loop, and alters or revives no other cue started before it. |
| Lights.ResumeAll | Assets/Scripts/LightDirector.cs:99-166 | Resuming handles in order within a frame keeps every loop not in the order running exactly as it was. An older cue not in the order that still runs afterwards is unchanged. |
| Scheduler.OneTaskPerKey | Assets/Scripts/LightDirector.cs:17-20 | Under the invariant, at most one cue runs per pad and at most one loop runs per origin. |
| Scheduler.CancelInv | Assets/Scripts/LightDirector.cs:68-78 | Cancelling keeps the invariant: unique registered tasks, fresh handles, and every pad showing its base or its lit cue's material. |
| Scheduler.LightOneBySlotInv | Assets/Scripts/LightDirector.cs:65-85 | `LightOneBySlot` keeps the invariant. |
| Scheduler.StopStateLoopInv | Assets/Scripts/LightDirector.cs:57-62 | `StopStateLoop` keeps the invariant. |
| Scheduler.FirePassInv | Assets/Scripts/LightDirector.cs:103-115 | Firing a pass of steps keeps the invariant. |
| Scheduler.TriggerStateInv | Assets/Scripts/LightDirector.cs:88-96 | `TriggerState` keeps the invariant. |
| Scheduler.ResumeCueInv | Assets/Scripts/LightDirector.cs:132-166 | Resuming a cue coroutine keeps the invariant. |
| Scheduler.ResumeLoopInv | Assets/Scripts/LightDirector.cs:98-129 | Resuming a loop coroutine keeps the invariant. |
| Scheduler.ResumeAllInv | Assets/Scripts/LightDirector.cs:99-166 | Resuming any sequence of handles in one frame keeps the invariant. |
| Scheduler.FrozenIdleResumeAll | Assets/Scripts/LightDirector.cs:48-51 | When the pause clock freezes a frame and every pending wait is short of its target, the frame changes nothing. |
| Scheduler.Tick | Assets/Scripts/LightDirector.cs:99-166 | The coroutine phase of one host frame resumes once each coroutine that was running when the frame began (handle below `frameStart`), in any order. A coroutine started since, for example by a press in the input phase (`Pad.cs:118`), ran to its first suspension when started and is left to the next frame: such a loop is unchanged, and so is such a cue while it runs. The frame keeps the invariant, and a paused frame with nothing due changes nothing. |
| Scheduler.TriggerStateShowsSteps | Assets/Scripts/LightDirector.cs:88-115 | From any director satisfying the invariant, a playable trigger leaves every known pad its steps target with the last such step as `FirePassShows` says, without its hypothesis: an ordinary step's cue running with the clamped arguments and lit, or still waiting out its delay; an undelayed stay-on step's colour shown and made the base. Every cue of an untargeted pad still runs. |
| Pads.LightCall | Assets/Scripts/Pad.cs:105-110 | A Light action lights this pad's own index, with `max(0.01, lightDuration)`, `max(0, lightDelay)`, its slot and its stay-on flag. |
| Pads.RunAction | Assets/Scripts/Pad.cs:93-115 | Transport emits its command only when the command is non-empty. Sample emits only for a non-null clip: `ToggleLoop` when looping, else `OneShot`, with gain `gain * velocity`. Light calls `LightOneBySlot`. State calls `TriggerState` only for a non-null asset, and only it can start a loop for this pad. Every loop except the one this pad's origin entry refers to keeps running unchanged (`OtherLoopsRun`). |
| Pads.DispatchAll | Assets/Scripts/Pad.cs:75-77 | Every entry of the profile is dispatched exactly once, as a multiset. Entries without a start delay run now, the others are handed back, and other origins' entries, and every loop except the one this pad's entry refers to, are untouched. |
| Pads.Immediate | Assets/Scripts/Pad.cs:91 | The entries without a start delay, each taken from the profile. |
| Pads.Postponed | Assets/Scripts/Pad.cs:91 | The entries with a start delay, each taken from the profile. |
| Pads.SplitKeepsAll | Assets/Scripts/Pad.cs:75-77 | Splitting by start delay keeps every entry exactly once. |
| Pads.DispatchRunsImmediate | Assets/Scripts/Pad.cs:75-77 | Dispatching runs exactly the undelayed entries, in list order, each on the director the previous one left (`RunEach`), sending their audio events in that order. It hands back exactly the delayed entries, in list order. |
| Pads.Selected | Assets/Scripts/Pad.cs:71 | A cursor at or past the profile count is reset to 0 before use. |
| Pads.Advance | Assets/Scripts/Pad.cs:84-85 | The cursor becomes one past the selected profile, modulo the profile count. |
| Pads.Press | Assets/Scripts/Pad.cs:63-86 | A press always stops the pad's own loop first. With no profiles it does nothing else and keeps the cursor. Otherwise it dispatches the selected profile's entries exactly once each, advances the cursor even over an empty profile, and leaves other origins' entries and their loop coroutines running unchanged. |
| Pads.PressDispatch | Assets/Scripts/Pad.cs:63-77 | With profiles, a press runs exactly the selected profile's undelayed entries, in order, on the director left by stopping the pad's own loop, and its events are theirs in that order. |
| Pads.PressInv | Assets/Scripts/Pad.cs:63-86 | A press keeps the light director's invariant. |
| Pads.Cycling | Assets/Scripts/Pad.cs:71-85 | Over `k` presses in a row, press `i` selects profile `(first + i) mod n`. |
| Pads.ThreeProfilesFourPresses | Assets/Scripts/Pad.cs:71-85 | Four presses of a fresh pad with three profiles select profiles 0, 1, 2, then 0. |
| PadSetup.Awake | Assets/Scripts/Pad.cs:58-61 | With a renderer, the base material is the renderer's initial material. Without one there is no base. |
| PadSetup.BuildPadIndex | Assets/Scripts/LightDirector.cs:34-38 | The table's keys are exactly the indexes of the scene's pads (`Indexes`). Each index maps to the first pad carrying it, awakened, and later duplicates are ignored. |
| PadSetup.IndexesExact | Assets/Scripts/LightDirector.cs:35-37 | An index is in the table's key set exactly when some pad in the scene carries it. |
| PadSetup.Startup | Assets/Scripts/LightDirector.cs:14-23 | At start the director holds the indexed pads and the palette, and nothing is running. |
| PadSetup.StartupInv | Assets/Scripts/Pad.cs:58-61 | Pads fresh from `Awake` satisfy the director's invariant at start. |

## Left out

- `Pad.Punch`, and `StopCoroutine("Punch")` in `Press`: a cosmetic scale animation on wall-clock float time.
- `OnMouseDown` and `Release`: input glue and an empty hook. `OnMouseDown` is `Press(1)`.
- `FindObjectsOfType` and the singletons (`LightDirector.I`, `PauseManager.I`, `AudioHub.I`): the pads, the pause manager and the presence of an audio hub are explicit parameters.
- `Debug.Log` in `SetPaused`: logging only.
- The `WaitForSeconds` start delay of an action: `Press` hands entries with a positive start delay back as deferred. The host runs `RunAction` for them later, not pause-gated, and its timing is not modelled.
- The nested `WaitOrPause` coroutine of a stopped cue or loop: it is dropped together with its parent, since it has no observable effect.
- Unity's order of resuming coroutines within a frame: `Tick` takes the order, and the first handle drawn in the frame, as parameters; every property holds for every order.
- A finished nested coroutine resumes its parent in the same frame, as `yield return StartCoroutine(...)` does.
- Audio: sample pooling, filters and volume clamping in `AudioHub.cs`, reduced to a trace of `OneShot`, `ToggleLoop`, `TransportCommand` and `SetGlobalPause` events.
- An audio call made while no audio hub exists throws in the source, and the action simply has no effect. The model emits no event.
- `GestureMixer.cs`, `DisplayManager.cs` and the `HandTracking` directory: floating-point gesture and UI code, a socket thread and camera capture. AudioHub.cs is not part of this model either.
- Floats are real numbers: float rounding of time sums and `gain * velocity` is not modelled.
- `Pad.currentProfileIndex` is a natural number: a negative serialized cursor, which would make the source index out of range, is not modelled.
- A null `transport` string is modelled as the empty string.
- A Unity "fake null" material, destroyed but not null, is not modelled: materials are null or present.
- Lights.StayOnRebases: the later ordinary cue is undelayed and nothing else lights the pad in between. A delayed later cue, or other cues and loops resumed in the same frames, are covered by the general `ResumeCue` and `Scheduler` contracts, not by this lemma.
- Lights.FirePassShows: the last-step facts are stated for a director whose running cues and pad entries all hold handles below its counter (`HandlesDrawn`), which every director satisfying the invariant does; `Scheduler.TriggerStateShowsSteps` states them without that hypothesis for such directors. The same holds for `RunPassCues`, `StartLoopCues`, `TriggerStateCues` and `ResumeLoopCues`.
- Pads.RunAction: `OtherLoopsRun` speaks of loops under handles drawn before the counter, which every running loop is under the invariant; a loop under a later handle could be replaced by a state trigger drawing that handle.
- Pads.DispatchAll: the same bound on `OtherLoopsRun` as for `RunAction`.
- Pads.Press: the same bound on `OtherLoopsRun` as for `RunAction`.
- PadSetup.StartupInv: it assumes every tabled pad is as `Awake` left it, rather than following the Unity execution order that runs every `Awake` before `Start`.

=== FILE: audio.dfy ===
/**
 The audio collaborator, reduced to the events the core emits towards it.
 Pooling, mixing and effect filters of the audio hub are not part of this model.
 */
module Audio {

  datatype AudioEvent =
    | OneShot(clip: int, gain: real)
    | ToggleLoop(clip: int, gain: real)
    | TransportCommand(command: string)
    | SetGlobalPause(paused: bool)
}

=== FILE: light_state.dfy ===
/**
 Authored light sequences: an ordered array of steps, each naming a pad, a
 palette slot, a lit duration and a start delay.
 */
module LightStates {
  import opened Wrappers

  /**
   One step of a sequence. `stayOn` is read by the scheduler although the
   authored record does not declare it; the model adds it.
   */
  datatype Step = Step(padIndex: int, colorSlot: int, duration: real, delay: real, stayOn: bool)

  /** A light-state asset; its steps array may be null. */
  datatype LightState = LightState(steps: Option<seq<Step>>)

  /** The inspector ranges declared on a step; the runtime does not enforce them. */
  predicate Authored(s: Step)
  {
    && 0 <= s.padIndex <= 15
    && 0 <= s.colorSlot <= 8
    && s.duration >= 0.01
    && s.delay >= 0.0
  }

  /** The larger of two reals, first argument on ties. */
  function Max(a: real, b: real): (r: real)
    ensures r >= a && r >= b
    ensures r == a || r == b
  {
    if a > b then a else b
  }

  /** When a step ends, measured from the pass that fires it. */
  function StepEnd(s: Step): real
  {
    s.delay + s.duration
  }

  /**
   The pass length of a sequence: the latest step end, and never below 0.
   Computed on the raw, unclamped step values, scanning in index order.
   */
  function MaxEnd(steps: seq<Step>): (r: real)
    ensures r >= 0.0
    ensures forall i :: 0 <= i < |steps| ==> StepEnd(steps[i]) <= r
    ensures r == 0.0 || exists i :: 0 <= i < |steps| && StepEnd(steps[i]) == r
    decreases |steps|
  {
    if |steps| == 0 then 0.0
    else
      var m := MaxEnd(steps[..|steps| - 1]);
      var e := StepEnd(steps[|steps| - 1]);
      if e > m then e else m
  }

  /** A non-empty sequence of authored steps lasts at least 0.01 seconds per pass, so it never waits just a frame. */
  lemma AuthoredPassLength(steps: seq<Step>)
    requires |steps| > 0 && forall i :: 0 <= i < |steps| ==> Authored(steps[i])
    ensures MaxEnd(steps) >= 0.01
  {
  }

  /** A two-step sequence of 0.5 s and 0.2 s + 1.0 s: a pass lasts 1.2 seconds. */
  lemma TwoStepPassLength()
    ensures MaxEnd([Step(1, 2, 0.5, 0.0, false), Step(2, 3, 1.0, 0.2, false)]) == 1.2
  {
  }
}

=== FILE: lights.dfy ===
/**
 The light director: per-pad cue coroutines and per-origin sequence loops,
 written as explicit task records that a host frame resumes.

 Every coroutine handle is a fresh number drawn from `nextHandle`. A
 coroutine that is running appears in `cues` or `loops` under its handle; the
 two dictionaries of the director map pad and origin indexes to handles, which
 may refer to coroutines that have already finished.
 */
module Lights {
  import opened Wrappers
  import opened PauseAware
  import opened Palette
  import opened LightStates

  /** What the director sees of a pad: renderer presence and two material tokens. */
  datatype PadLight = PadLight(hasRenderer: bool, material: Material, base: Material)

  /** The arguments of one LightOneBySlot call. */
  datatype CueCall = CueCall(pad: int, slot: int, duration: real, delay: real, stayOn: bool)

  /** A cue coroutine's fixed arguments, its material already looked up. */
  datatype Cue = Cue(pad: int, mat: Material, duration: real, stayOn: bool)

  /** Where a cue coroutine is suspended: in its start delay or while lit. */
  datatype CuePhase = Delaying(wait: Wait) | Holding(wait: Wait)

  datatype CueTask = CueTask(cue: Cue, phase: CuePhase)

  /** A sequence loop's fixed arguments. */
  datatype Loop = Loop(origin: int, steps: seq<Step>, loop: bool)

  /** A loop suspends between passes on a pause-aware wait, or for one frame. */
  datatype LoopPhase = Settling(wait: Wait) | NextFrame

  datatype LoopTask = LoopTask(spec: Loop, phase: LoopPhase)

  type Handle = nat

  datatype Director = Director(
    pads: map<int, PadLight>,             // pad index -> pad (padByIndex)
    palette: Option<seq<Material>>,
    lightRoutines: map<int, Handle>,      // pad index -> cue coroutine
    stateLoops: map<int, Handle>,         // origin pad index -> loop coroutine
    cues: map<Handle, CueTask>,           // running cue coroutines
    loops: map<Handle, LoopTask>,         // running loop coroutines
    nextHandle: Handle)

  function SetMaterial(w: Director, p: int, m: Material): Director
    requires p in w.pads
  {
    w.(pads := w.pads[p := w.pads[p].(material := m)])
  }

  /** Nothing about sequence loops or the palette changes. */
  ghost predicate LoopsKept(w: Director, r: Director)
  {
    r.loops == w.loops && r.stateLoops == w.stateLoops && r.palette == w.palette
  }

  /** Only pad p's light state may differ. */
  ghost predicate OtherPadsKept(w: Director, r: Director, p: int)
  {
    && r.pads.Keys == w.pads.Keys
    && (forall q :: q in w.pads && q != p ==> r.pads[q] == w.pads[q])
  }

  /** Only pad p's entry in lightRoutines may differ. */
  ghost predicate OtherRoutinesKept(w: Director, r: Director, p: int)
  {
    && (forall q :: q != p ==> (q in r.lightRoutines <==> q in w.lightRoutines))
    && (forall q :: q in w.lightRoutines && q != p ==> r.lightRoutines[q] == w.lightRoutines[q])
  }

  /**
   Cancelling the cue on pad p: stop its coroutine, drop the entry and, when
   the pad has a renderer and a base material, show the base at once.
   */
  function Cancel(w: Director, p: int): (r: Director)
    requires p in w.pads
    ensures r.pads.Keys == w.pads.Keys
    ensures p !in r.lightRoutines
    ensures p in w.lightRoutines ==> w.lightRoutines[p] !in r.cues
    ensures p in w.lightRoutines && w.pads[p].hasRenderer && w.pads[p].base.Some? ==>
      r.pads[p].material == w.pads[p].base
    ensures !(p in w.lightRoutines && w.pads[p].hasRenderer && w.pads[p].base.Some?) ==> r.pads == w.pads
    ensures p !in w.lightRoutines ==> r == w
    ensures r.pads[p].base == w.pads[p].base && r.pads[p].hasRenderer == w.pads[p].hasRenderer
    ensures LoopsKept(w, r) && OtherPadsKept(w, r, p) && OtherRoutinesKept(w, r, p)
    ensures r.nextHandle == w.nextHandle
    ensures forall k :: k in r.cues ==> k in w.cues && r.cues[k] == w.cues[k]
    ensures forall k :: k in w.cues && (p !in w.lightRoutines || k != w.lightRoutines[p]) ==> k in r.cues
  {
    if p in w.lightRoutines then
      var w1 := w.(cues := w.cues - {w.lightRoutines[p]}, lightRoutines := w.lightRoutines - {p});
      var pad := w.pads[p];
      if pad.hasRenderer && pad.base.Some? then SetMaterial(w1, p, pad.base) else w1
    else w
  }

  /**
   The end of a flash: show the pad's base material as it is now, then drop
   whatever entry the pad has. Without a renderer the assignment throws and
   the coroutine dies before the entry is dropped.
   */
  function Restore(w: Director, p: int): (r: Director)
    requires p in w.pads
    ensures r.pads.Keys == w.pads.Keys
    ensures w.pads[p].base.Some? && w.pads[p].hasRenderer ==> r.pads[p].material == w.pads[p].base
    ensures w.pads[p].hasRenderer || w.pads[p].base.None? ==> p !in r.lightRoutines
    ensures r.pads[p].base == w.pads[p].base && r.pads[p].hasRenderer == w.pads[p].hasRenderer
    ensures w.pads[p].base.None? ==> r.pads[p] == w.pads[p]
    ensures w.pads[p].base.Some? && !w.pads[p].hasRenderer ==> r == w
    ensures LoopsKept(w, r) && OtherPadsKept(w, r, p) && OtherRoutinesKept(w, r, p)
    ensures r.cues == w.cues && r.nextHandle == w.nextHandle
  {
    var pad := w.pads[p];
    if pad.base.Some? && !pad.hasRenderer then w
    else
      var w1 := if pad.base.Some? then SetMaterial(w, p, pad.base) else w;
      w1.(lightRoutines := w1.lightRoutines - {p})
  }

  /**
   A cue coroutine from the end of its delay to its next suspension, in frame
   f. A stay-on cue makes its material both the shown and the base material
   and ends. It drops the pad's entry only when that entry holds a null
   handle, and the entry never does at that point: an undelayed cue runs here
   before LightOneBySlot stores its entry, and a delayed one finds its own
   handle there. Any other cue shows its material and waits out its duration.
   Handle h is not running on entry.
   */
  function Proceed(w: Director, f: Frame, h: Handle, c: Cue): (r: Director)
    requires c.pad in w.pads
    ensures r.pads.Keys == w.pads.Keys
    ensures c.stayOn && c.mat.Some? && w.pads[c.pad].hasRenderer ==>
      r.pads[c.pad].material == c.mat && r.pads[c.pad].base == c.mat
    ensures !c.stayOn && c.mat.Some? && w.pads[c.pad].hasRenderer && c.duration > 0.0 ==>
      r.pads[c.pad].material == c.mat
    ensures c.stayOn || c.duration <= 0.0 ==> r.cues == w.cues
    ensures !c.stayOn && c.duration > 0.0 && (c.mat.None? || w.pads[c.pad].hasRenderer) ==>
      r.cues == w.cues[h := CueTask(c, Holding(StartWait(c.duration, f).value))]
    ensures !c.stayOn && c.duration > 0.0 && c.mat.Some? && !w.pads[c.pad].hasRenderer ==> r.cues == w.cues
    ensures c.stayOn ==> r.lightRoutines == w.lightRoutines
    ensures r.pads[c.pad].hasRenderer == w.pads[c.pad].hasRenderer
    ensures !c.stayOn ==> r.pads[c.pad].base == w.pads[c.pad].base
    ensures c.mat.None? && (c.stayOn || c.duration > 0.0) ==> r.pads == w.pads
    ensures c.mat.Some? && !w.pads[c.pad].hasRenderer ==> r == w
    ensures LoopsKept(w, r) && OtherPadsKept(w, r, c.pad) && OtherRoutinesKept(w, r, c.pad)
    ensures r.nextHandle == w.nextHandle
  {
    var pad := w.pads[c.pad];
    if c.mat.Some? && !pad.hasRenderer then w
    else if c.stayOn then
      if c.mat.Some? then w.(pads := w.pads[c.pad := pad.(material := c.mat, base := c.mat)]) else w
    else
      var w1 := if c.mat.Some? then SetMaterial(w, c.pad, c.mat) else w;
      match StartWait(c.duration, f)
      case Some(wt) => w1.(cues := w1.cues[h := CueTask(c, Holding(wt))])
      case None => Restore(w1, c.pad)
  }

  /**
   Starting a cue coroutine under handle h runs it to its first suspension:
   a positive delay suspends at once in the pause-aware wait, having touched
   nothing else; otherwise the cue carries on as after its delay.
   */
  function StartCue(w: Director, f: Frame, h: Handle, c: Cue, delay: real): (r: Director)
    requires c.pad in w.pads
    ensures delay > 0.0 ==>
      r == w.(cues := w.cues[h := CueTask(c, Delaying(Wait(Gain(f), delay)))])
    ensures delay <= 0.0 ==> r == Proceed(w, f, h, c)
    ensures r.pads.Keys == w.pads.Keys && LoopsKept(w, r) && r.nextHandle == w.nextHandle
    ensures r.lightRoutines == w.lightRoutines || (!c.stayOn && c.pad !in r.lightRoutines)
  {
    if delay > 0.0 then w.(cues := w.cues[h := CueTask(c, Delaying(StartWait(delay, f).value))])
    else Proceed(w, f, h, c)
  }

  /**
   The coroutine a LightOneBySlot call issued in frame f leaves running under
   its new handle, when it leaves one: suspended in its delay, or lit for its
   duration, each wait already holding frame f's time.
   */
  function Started(palette: Option<seq<Material>>, f: Frame, c: CueCall): CueTask
  {
    CueTask(Cue(c.pad, SafeGet(palette, c.slot), c.duration, c.stayOn),
            if c.delay > 0.0 then Delaying(Wait(Gain(f), c.delay)) else Holding(Wait(Gain(f), c.duration)))
  }

  /**
   LightOneBySlot: unknown pads are ignored; otherwise the pad's running cue
   is cancelled (base restored at once), a new cue coroutine is started under
   a fresh handle, and that handle becomes the pad's only entry.
   */
  function LightOneBySlot(w: Director, f: Frame, c: CueCall): (r: Director)
    ensures c.pad !in w.pads ==> r == w
    ensures LoopsKept(w, r) && OtherPadsKept(w, r, c.pad) && OtherRoutinesKept(w, r, c.pad)
    ensures c.pad in w.pads ==> r.nextHandle == w.nextHandle + 1
    ensures c.pad in w.pads ==> c.pad in r.lightRoutines && r.lightRoutines[c.pad] == w.nextHandle
    ensures c.pad in w.pads && c.pad in w.lightRoutines && w.lightRoutines[c.pad] < w.nextHandle ==>
      w.lightRoutines[c.pad] !in r.cues
    ensures forall k :: k in r.cues && k != w.nextHandle ==> k in w.cues && r.cues[k] == w.cues[k]
    ensures forall k :: k in w.cues && (c.pad !in w.lightRoutines || k != w.lightRoutines[c.pad]) ==>
      k in r.cues
    ensures c.pad in w.pads && w.nextHandle !in w.cues && w.nextHandle in r.cues ==>
      r.cues[w.nextHandle].cue.pad == c.pad
    ensures c.pad in w.pads && w.nextHandle !in w.cues && w.nextHandle in r.cues ==>
      r.cues[w.nextHandle] == Started(w.palette, f, c)
    ensures c.pad in w.pads && (c.delay > 0.0 || (SafeGet(w.palette, c.slot).None? && (c.stayOn || c.duration > 0.0))) ==>
      r.pads == Cancel(w, c.pad).pads
    ensures c.pad in w.pads && c.delay <= 0.0 && SafeGet(w.palette, c.slot).Some? && !w.pads[c.pad].hasRenderer ==>
      r.pads == Cancel(w, c.pad).pads
    ensures c.pad in w.pads && c.delay > 0.0 ==>
      (w.nextHandle in r.cues &&
       r.cues[w.nextHandle] == CueTask(Cue(c.pad, SafeGet(w.palette, c.slot), c.duration, c.stayOn),
                                       Delaying(StartWait(c.delay, f).value)))
    ensures c.pad in w.pads && c.delay > 0.0 && c.pad in w.lightRoutines &&
            w.pads[c.pad].hasRenderer && w.pads[c.pad].base.Some? ==>
      r.pads[c.pad].material == w.pads[c.pad].base
    ensures c.pad in w.pads && c.delay <= 0.0 && w.pads[c.pad].hasRenderer &&
            SafeGet(w.palette, c.slot).Some? && (c.stayOn || c.duration > 0.0) ==>
      r.pads[c.pad].material == SafeGet(w.palette, c.slot)
    ensures c.pad in w.pads && c.delay <= 0.0 && c.stayOn && w.pads[c.pad].hasRenderer &&
            SafeGet(w.palette, c.slot).Some? ==>
      r.pads[c.pad].base == SafeGet(w.palette, c.slot)
    ensures c.pad in w.pads && !c.stayOn ==> r.pads[c.pad].base == w.pads[c.pad].base
    ensures c.pad in w.pads ==> r.pads[c.pad].hasRenderer == w.pads[c.pad].hasRenderer
    ensures c.pad in w.pads && c.delay <= 0.0 && !c.stayOn && c.duration > 0.0 &&
            (SafeGet(w.palette, c.slot).None? || w.pads[c.pad].hasRenderer) ==>
      w.nextHandle in r.cues &&
      r.cues[w.nextHandle] == CueTask(Cue(c.pad, SafeGet(w.palette, c.slot), c.duration, false),
                                      Holding(StartWait(c.duration, f).value))
  {
    if c.pad !in w.pads then w
    else
      var w1 := Cancel(w, c.pad);
      var h := w1.nextHandle;
      var cue := Cue(c.pad, SafeGet(w.palette, c.slot), c.duration, c.stayOn);
      var w2 := StartCue(w1.(nextHandle := h + 1), f, h, cue, c.delay);
      w2.(lightRoutines := w2.lightRoutines[c.pad := h])
  }

  /**
   Before any slot is authored every cue is issued with a null material: the
   call only cancels the pad's running cue, and the cue it starts, if it
   starts one, carries no material, so that resuming it never shows anything
   either (ResumeCue) until its lit time ends and the base comes back.
   */
  lemma DefaultPaletteCueShowsNothing(w: Director, f: Frame, c: CueCall)
    requires w.palette == DefaultPalette()
    ensures var r := LightOneBySlot(w, f, c);
      && (c.pad in w.pads && (c.stayOn || c.duration > 0.0) ==> r.pads == Cancel(w, c.pad).pads)
      && (forall k :: k in r.cues && k !in w.cues ==> r.cues[k].cue.mat.None?)
  {
    UnauthoredPaletteLightsNothing(c.slot);
  }

  /**
   StopStateLoop: stop and forget the loop an origin started, if any. Cue
   coroutines that loop already started are left to finish on their own.
   */
  function StopStateLoop(w: Director, o: int): (r: Director)
    ensures o !in r.stateLoops
    ensures o !in w.stateLoops ==> r == w
    ensures o in w.stateLoops ==> w.stateLoops[o] !in r.loops
    ensures forall k :: k in r.loops ==> k in w.loops && r.loops[k] == w.loops[k]
    ensures forall k :: k in w.loops && (o !in w.stateLoops || k != w.stateLoops[o]) ==> k in r.loops
    ensures forall q :: q != o ==> (q in r.stateLoops <==> q in w.stateLoops)
    ensures forall q :: q in w.stateLoops && q != o ==> r.stateLoops[q] == w.stateLoops[q]
    ensures r.pads == w.pads && r.cues == w.cues && r.lightRoutines == w.lightRoutines
    ensures r.nextHandle == w.nextHandle && r.palette == w.palette
  {
    if o in w.stateLoops then w.(loops := w.loops - {w.stateLoops[o]}, stateLoops := w.stateLoops - {o})
    else w
  }

  /** The LightOneBySlot arguments a sequence step produces: clamped duration and delay. */
  function StepCall(s: Step): (c: CueCall)
    ensures c.pad == s.padIndex && c.slot == s.colorSlot && c.stayOn == s.stayOn
    ensures c.duration >= 0.01 && c.delay >= 0.0
    ensures s.duration >= 0.01 ==> c.duration == s.duration
    ensures s.delay >= 0.0 ==> c.delay == s.delay
    ensures s.duration < 0.01 ==> c.duration == 0.01
    ensures s.delay < 0.0 ==> c.delay == 0.0
  {
    CueCall(s.padIndex, s.colorSlot, Max(0.01, s.duration), Max(0.0, s.delay), s.stayOn)
  }

  /** Does some step of the list target pad q? */
  ghost predicate Targets(steps: seq<Step>, q: int)
  {
    exists i :: 0 <= i < |steps| && steps[i].padIndex == q
  }

  /** Step i of the list targets its pad. */
  lemma TargetsAt(steps: seq<Step>, i: int)
    requires 0 <= i < |steps|
    ensures Targets(steps, steps[i].padIndex)
  {
  }

  /** Step i is the last step of the list on its pad. */
  ghost predicate LastOnPad(steps: seq<Step>, i: int)
  {
    0 <= i < |steps| && forall j :: i < j < |steps| ==> steps[j].padIndex != steps[i].padIndex
  }

  /** Is k the entry of some pad a step targets? */
  ghost predicate ShownOnTarget(w: Director, steps: seq<Step>, k: Handle)
  {
    exists q :: q in w.lightRoutines && Targets(steps, q) && w.lightRoutines[q] == k
  }

  /** Every running cue and every pad entry holds a handle drawn before nextHandle. */
  ghost predicate HandlesDrawn(w: Director)
  {
    && (forall k :: k in w.cues ==> k < w.nextHandle)
    && (forall p :: p in w.lightRoutines ==> w.lightRoutines[p] < w.nextHandle)
  }

  /**
   Step s, fired in frame f, is the cue its pad's entry in r refers to: if
   that cue runs, it is the one the step's clamped call started. A delayed
   step's cue is still waiting out its delay, and an ordinary one is still
   running unless its material could not be shown for want of a renderer.
   An undelayed step whose material the pad can show shows it, and a
   stay-on one has also made it the pad's base.
   */
  ghost predicate StepShown(palette: Option<seq<Material>>, f: Frame, r: Director, s: Step)
  {
    && s.padIndex in r.lightRoutines
    && (r.lightRoutines[s.padIndex] in r.cues ==>
          r.cues[r.lightRoutines[s.padIndex]] == Started(palette, f, StepCall(s)))
    && (StepCall(s).delay > 0.0 ==> r.lightRoutines[s.padIndex] in r.cues)
    && (!s.stayOn && s.padIndex in r.pads && (SafeGet(palette, s.colorSlot).None? || r.pads[s.padIndex].hasRenderer) ==>
          r.lightRoutines[s.padIndex] in r.cues)
    && (StepCall(s).delay <= 0.0 && s.padIndex in r.pads && r.pads[s.padIndex].hasRenderer &&
        SafeGet(palette, s.colorSlot).Some? ==>
          r.pads[s.padIndex].material == SafeGet(palette, s.colorSlot))
    && (StepCall(s).delay <= 0.0 && s.stayOn && s.padIndex in r.pads && r.pads[s.padIndex].hasRenderer &&
        SafeGet(palette, s.colorSlot).Some? ==>
          r.pads[s.padIndex].base == SafeGet(palette, s.colorSlot))
  }

  /**
   What firing `steps` from director w left in r: every step on a known pad
   gave that pad an entry drawn during the pass; pads and entries no step
   targets are untouched; no cue started before the pass is revived or
   altered, and no loop or palette slot changes.
   */
  ghost predicate PassFired(w: Director, r: Director, steps: seq<Step>)
  {
    && r.pads.Keys == w.pads.Keys
    && r.palette == w.palette
    && r.nextHandle >= w.nextHandle
    && (forall k :: k in r.cues && k < w.nextHandle ==> k in w.cues && r.cues[k] == w.cues[k])
    && (forall i :: 0 <= i < |steps| && steps[i].padIndex in w.pads ==>
          steps[i].padIndex in r.lightRoutines && w.nextHandle <= r.lightRoutines[steps[i].padIndex] < r.nextHandle)
    && (forall q :: q in w.pads && !Targets(steps, q) ==> r.pads[q] == w.pads[q])
    && (forall q :: !Targets(steps, q) ==> (q in r.lightRoutines <==> q in w.lightRoutines))
    && (forall q :: q in w.lightRoutines && !Targets(steps, q) ==> r.lightRoutines[q] == w.lightRoutines[q])
  }

  /** A pass stops no cue older than itself except one that a targeted pad's entry referred to. */
  ghost predicate PassKeeps(w: Director, r: Director, steps: seq<Step>)
  {
    forall k :: k in w.cues && k < w.nextHandle && !ShownOnTarget(w, steps, k) ==> k in r.cues
  }

  /**
   When w drew its handles in order, the last step on each known pad is the
   cue that pad's entry refers to after the pass, fired in frame f.
   */
  ghost predicate PassShows(w: Director, f: Frame, r: Director, steps: seq<Step>)
  {
    HandlesDrawn(w) ==>
      forall i :: LastOnPad(steps, i) && steps[i].padIndex in w.pads ==> StepShown(w.palette, f, r, steps[i])
  }

  /** Both facts about the cues a pass leaves: which older ones survive, and which each pad shows. */
  ghost predicate PassCues(w: Director, f: Frame, r: Director, steps: seq<Step>)
  {
    PassKeeps(w, r, steps) && PassShows(w, f, r, steps)
  }

  /**
   The cue facts of a pass depend only on the cues, entries, pads and
   palette before and after it, and hold as well from any earlier point of
   the handle counter.
   */
  lemma PassCuesFrom(w: Director, w': Director, f: Frame, r: Director, r': Director, steps: seq<Step>)
    requires PassCues(w', f, r, steps)
    requires w'.cues == w.cues && w'.lightRoutines == w.lightRoutines && w'.pads == w.pads
    requires w'.palette == w.palette && w.nextHandle <= w'.nextHandle
    requires r'.cues == r.cues && r'.lightRoutines == r.lightRoutines && r'.pads == r.pads
    ensures PassCues(w, f, r', steps)
  {
    assert forall k :: ShownOnTarget(w, steps, k) == ShownOnTarget(w', steps, k);
  }

  /**
   One pass of a sequence: every step, in index order, becomes a
   LightOneBySlot call without waiting for the others.
   */
  function FirePass(w: Director, f: Frame, steps: seq<Step>): (r: Director)
    ensures LoopsKept(w, r) && PassFired(w, r, steps)
    decreases |steps|
  {
    if |steps| == 0 then w
    else
      var w1 := LightOneBySlot(w, f, StepCall(steps[0]));
      var r := FirePass(w1, f, steps[1..]);
      assert forall q :: Targets(steps[1..], q) ==> Targets(steps, q) by {
        forall q | Targets(steps[1..], q) ensures Targets(steps, q) {
          var i :| 0 <= i < |steps[1..]| && steps[1..][i].padIndex == q;
          TargetsAt(steps, i + 1);
        }
      }
      TargetsAt(steps, 0);
      assert forall i :: 1 <= i < |steps| ==> steps[i] == steps[1..][i - 1];
      r
  }

  /** Every pad the rest of a pass targets is targeted by the whole pass. */
  lemma TargetsTail(steps: seq<Step>)
    requires |steps| > 0
    ensures forall q :: Targets(steps[1..], q) ==> Targets(steps, q)
  {
    forall q | Targets(steps[1..], q) ensures Targets(steps, q) {
      var i :| 0 <= i < |steps[1..]| && steps[1..][i].padIndex == q;
      TargetsAt(steps, i + 1);
    }
  }

  /**
   A pass stops an older cue only through a targeted pad's entry: every step
   cancels the cue its pad's entry refers to, which is either the entry the
   pad had before the pass or a handle drawn during it.
   */
  lemma {:induction false} FirePassKeeps(w: Director, f: Frame, steps: seq<Step>)
    ensures PassKeeps(w, FirePass(w, f, steps), steps)
    decreases |steps|
  {
    if |steps| > 0 {
      var p := steps[0].padIndex;
      var w1 := LightOneBySlot(w, f, StepCall(steps[0]));
      var r := FirePass(w1, f, steps[1..]);
      FirePassKeeps(w1, f, steps[1..]);
      assert FirePass(w, f, steps) == r;
      TargetsTail(steps);
      TargetsAt(steps, 0);
      forall k | k in w.cues && k < w.nextHandle && !ShownOnTarget(w, steps, k)
        ensures k in r.cues
      {
        assert k in w1.cues;
        forall q | q in w1.lightRoutines && Targets(steps[1..], q)
          ensures w1.lightRoutines[q] != k
        {
          if q != p || p !in w.pads {
            assert w1.lightRoutines[q] == w.lightRoutines[q];
          }
        }
        assert !ShownOnTarget(w1, steps[1..], k);
      }
    }
  }

  /** The rest of a pass does not target the pad of a step that is the last on its pad. */
  lemma LastOnPadUntargeted(steps: seq<Step>)
    requires LastOnPad(steps, 0)
    ensures !Targets(steps[1..], steps[0].padIndex)
  {
    forall j | 0 <= j < |steps[1..]|
      ensures steps[1..][j].padIndex != steps[0].padIndex
    {
      assert steps[1..][j] == steps[j + 1];
    }
  }

  /**
   After a pass, the cue each known pad's entry refers to is the one the last
   step on that pad started, with its clamped duration and delay; a delayed
   one is still waiting out its delay.
   */
  lemma {:induction false} FirePassShows(w: Director, f: Frame, steps: seq<Step>)
    ensures PassShows(w, f, FirePass(w, f, steps), steps)
    decreases |steps|
  {
    if |steps| > 0 && HandlesDrawn(w) {
      var p := steps[0].padIndex;
      var w1 := LightOneBySlot(w, f, StepCall(steps[0]));
      var r := FirePass(w1, f, steps[1..]);
      FirePassShows(w1, f, steps[1..]);
      FirePassKeeps(w1, f, steps[1..]);
      assert FirePass(w, f, steps) == r;
      assert HandlesDrawn(w1);
      forall i | LastOnPad(steps, i) && steps[i].padIndex in w.pads
        ensures StepShown(w.palette, f, r, steps[i])
      {
        if i == 0 {
          LastOnPadUntargeted(steps);
          var h := w.nextHandle;
          assert r.lightRoutines[p] == h;
          assert !ShownOnTarget(w1, steps[1..], h);
          assert r.pads[p] == w1.pads[p];
        } else {
          assert steps[1..][i - 1] == steps[i];
          assert LastOnPad(steps[1..], i - 1);
        }
      }
    }
  }

  /** Steps fire strictly in index order: a pass over a + b is a pass over a, then one over b. */
  lemma {:induction false} FirePassInOrder(w: Director, f: Frame, a: seq<Step>, b: seq<Step>)
    ensures FirePass(w, f, a + b) == FirePass(FirePass(w, f, a), f, b)
    decreases |a|
  {
    if |a| > 0 {
      assert (a + b)[0] == a[0];
      assert (a + b)[1..] == a[1..] + b;
      FirePassInOrder(LightOneBySlot(w, f, StepCall(a[0])), f, a[1..], b);
    } else {
      assert a + b == b;
    }
  }

  /** A step within its authored ranges is played exactly as written, from a palette slot that exists. */
  lemma AuthoredStepUnclamped(s: Step)
    requires Authored(s)
    ensures StepCall(s) == CueCall(s.padIndex, s.colorSlot, s.duration, s.delay, s.stayOn)
    ensures 0 <= StepCall(s).slot < PaletteSize
  {
  }

  /** Where a loop suspends after firing a pass in frame f: the pass length, or one frame when that is 0. */
  function PassWait(steps: seq<Step>, f: Frame): LoopPhase
  {
    var maxEnd := MaxEnd(steps);
    if maxEnd > 0.0 then Settling(StartWait(maxEnd, f).value) else NextFrame
  }

  /**
   One pass of a loop coroutine under handle h: fire the steps, then suspend
   for the pass length (pause-aware) or, when that is 0, for one frame.
   */
  function RunPass(w: Director, f: Frame, h: Handle, spec: Loop): (r: Director)
    ensures h in r.loops && r.loops[h].spec == spec
    ensures MaxEnd(spec.steps) > 0.0 ==> r.loops[h].phase == Settling(Wait(Gain(f), MaxEnd(spec.steps)))
    ensures MaxEnd(spec.steps) == 0.0 ==> r.loops[h].phase == NextFrame
    ensures r.loops == w.loops[h := r.loops[h]] && r.stateLoops == w.stateLoops
    ensures PassFired(w, r, spec.steps)
  {
    var w1 := FirePass(w, f, spec.steps);
    w1.(loops := w1.loops[h := LoopTask(spec, PassWait(spec.steps, f))])
  }

  /** A pass of a loop leaves the cues its steps started (FirePassKeeps, FirePassShows). */
  lemma RunPassCues(w: Director, f: Frame, h: Handle, spec: Loop)
    ensures PassCues(w, f, RunPass(w, f, h, spec), spec.steps)
  {
    FirePassKeeps(w, f, spec.steps);
    FirePassShows(w, f, spec.steps);
    PassCuesFrom(w, w, f, FirePass(w, f, spec.steps), RunPass(w, f, h, spec), spec.steps);
  }

  /** Starting a loop draws a fresh handle and revives no earlier one. */
  lemma StartLoopFresh(w: Director, f: Frame, spec: Loop)
    ensures forall k :: k in StartLoop(w, f, spec).loops ==> k in w.loops || k == w.nextHandle
    ensures StartLoop(w, f, spec).nextHandle > w.nextHandle
  {
  }

  /**
   Every loop running in w under a handle drawn before its counter, other
   than the one origin o's entry refers to, still runs unchanged in r.
   */
  ghost predicate OtherLoopsRun(w: Director, r: Director, o: int)
  {
    forall k :: k in w.loops && k < w.nextHandle && (o !in w.stateLoops || k != w.stateLoops[o]) ==>
      k in r.loops && r.loops[k] == w.loops[k]
  }

  /** Does starting this asset start a loop coroutine? */
  predicate Playable(def: Option<LightState>)
  {
    def.Some? && def.value.steps.Some?
  }

  /**
   Starting a loop coroutine for an origin: a fresh handle, the first pass at
   once, and the handle stored as the origin's entry.
   */
  function StartLoop(w: Director, f: Frame, spec: Loop): (r: Director)
    ensures spec.origin in r.stateLoops && r.stateLoops[spec.origin] == w.nextHandle
    ensures w.nextHandle in r.loops && r.loops[w.nextHandle].spec == spec
    ensures forall k :: k in w.loops ==> k in r.loops && (k != w.nextHandle ==> r.loops[k] == w.loops[k])
    ensures r.stateLoops == w.stateLoops[spec.origin := w.nextHandle]
    ensures PassFired(w, r, spec.steps)
  {
    var h := w.nextHandle;
    var w1 := RunPass(w.(nextHandle := h + 1), f, h, spec);
    w1.(stateLoops := w1.stateLoops[spec.origin := h])
  }

  /** Starting a loop leaves the cues and entries its first pass, under the next handle, leaves. */
  lemma StartLoopRunsPass(w: Director, f: Frame, spec: Loop)
    ensures var r := RunPass(w.(nextHandle := w.nextHandle + 1), f, w.nextHandle, spec);
      && StartLoop(w, f, spec).cues == r.cues && StartLoop(w, f, spec).lightRoutines == r.lightRoutines
      && StartLoop(w, f, spec).pads == r.pads
  {
  }

  /** The first pass of a new loop leaves the cues its steps started. */
  lemma StartLoopCues(w: Director, f: Frame, spec: Loop)
    ensures PassCues(w, f, StartLoop(w, f, spec), spec.steps)
  {
    var w1 := w.(nextHandle := w.nextHandle + 1);
    var r := RunPass(w1, f, w.nextHandle, spec);
    RunPassCues(w1, f, w.nextHandle, spec);
    StartLoopRunsPass(w, f, spec);
    PassCuesFrom(w, w1, f, r, StartLoop(w, f, spec), spec.steps);
  }

  /**
   TriggerState: a null asset or a null step array is ignored; otherwise the
   origin's previous loop is stopped and a new loop coroutine, whose first
   pass runs at once, becomes the origin's only entry.
   */
  function TriggerState(w: Director, f: Frame, origin: int, def: Option<LightState>, loop: bool): (r: Director)
    ensures !Playable(def) ==> r == w
    ensures Playable(def) ==> origin in r.stateLoops && r.stateLoops[origin] == w.nextHandle
    ensures Playable(def) ==>
      (r.stateLoops[origin] in r.loops && r.loops[r.stateLoops[origin]].spec == Loop(origin, def.value.steps.value, loop))
    ensures Playable(def) && origin in w.stateLoops && w.stateLoops[origin] < w.nextHandle ==>
      w.stateLoops[origin] !in r.loops
    ensures forall q :: q != origin ==> (q in r.stateLoops <==> q in w.stateLoops)
    ensures forall q :: q in w.stateLoops && q != origin ==> r.stateLoops[q] == w.stateLoops[q]
    ensures forall k :: k in r.loops && k < w.nextHandle ==> k in w.loops
    ensures forall k :: k in w.loops && k != w.nextHandle && (origin !in w.stateLoops || k != w.stateLoops[origin]) ==>
      k in r.loops && r.loops[k] == w.loops[k]
    ensures OtherLoopsRun(w, r, origin)
    ensures r.nextHandle >= w.nextHandle
    ensures r.pads.Keys == w.pads.Keys
    ensures Playable(def) ==> PassFired(w, r, def.value.steps.value)
  {
    if !Playable(def) then w
    else
      StartLoopFresh(StopStateLoop(w, origin), f, Loop(origin, def.value.steps.value, loop));
      StartLoop(StopStateLoop(w, origin), f, Loop(origin, def.value.steps.value, loop))
  }

  /** TriggerState's synchronous first pass leaves the cues the asset's steps started. */
  lemma TriggerStateCues(w: Director, f: Frame, origin: int, def: Option<LightState>, loop: bool)
    requires Playable(def)
    ensures PassCues(w, f, TriggerState(w, f, origin, def, loop), def.value.steps.value)
  {
    var spec := Loop(origin, def.value.steps.value, loop);
    StartLoopCues(StopStateLoop(w, origin), f, spec);
    PassCuesFrom(w, StopStateLoop(w, origin), f, StartLoop(StopStateLoop(w, origin), f, spec),
                 TriggerState(w, f, origin, def, loop), spec.steps);
  }

  /**
   A cue coroutine resumed in frame f: its wait advances, or the wait ends
   and the coroutine carries on (after the delay: light; after the duration:
   restore and drop the entry).
   */
  function ResumeCue(w: Director, f: Frame, h: Handle): (r: Director)
    requires h in w.cues && w.cues[h].cue.pad in w.pads
    ensures r.pads.Keys == w.pads.Keys && LoopsKept(w, r) && r.nextHandle == w.nextHandle
    ensures OtherPadsKept(w, r, w.cues[h].cue.pad) && OtherRoutinesKept(w, r, w.cues[h].cue.pad)
    ensures r.pads[w.cues[h].cue.pad].hasRenderer == w.pads[w.cues[h].cue.pad].hasRenderer
    ensures !(Due(w.cues[h].phase.wait) && w.cues[h].phase.Delaying? && w.cues[h].cue.stayOn) ==>
      r.pads[w.cues[h].cue.pad].base == w.pads[w.cues[h].cue.pad].base
    ensures f.frozen && !Due(w.cues[h].phase.wait) ==> r == w
    ensures !Due(w.cues[h].phase.wait) ==>
      r.pads == w.pads && r.lightRoutines == w.lightRoutines && h in r.cues &&
      r.cues[h].cue == w.cues[h].cue && r.cues[h].phase.Holding? == w.cues[h].phase.Holding? &&
      r.cues[h].phase.wait == Wait(w.cues[h].phase.wait.timer + Gain(f), w.cues[h].phase.wait.target)
    ensures forall k :: k in r.cues && k != h ==> k in w.cues && r.cues[k] == w.cues[k]
    ensures forall k :: k in w.cues && k != h ==> k in r.cues
    ensures Due(w.cues[h].phase.wait) && w.cues[h].phase.Holding? ==>
      var p := w.cues[h].cue.pad;
      h !in r.cues &&
      (w.pads[p].base.Some? && w.pads[p].hasRenderer ==> r.pads[p].material == w.pads[p].base) &&
      (w.pads[p].base.None? ==> r.pads[p] == w.pads[p]) &&
      (w.pads[p].hasRenderer || w.pads[p].base.None? ==> p !in r.lightRoutines)
    ensures Due(w.cues[h].phase.wait) && w.cues[h].phase.Delaying? ==>
      var c := w.cues[h].cue;
      (c.mat.Some? && w.pads[c.pad].hasRenderer && (c.stayOn || c.duration > 0.0) ==> r.pads[c.pad].material == c.mat) &&
      (c.stayOn && c.mat.Some? && w.pads[c.pad].hasRenderer ==> r.pads[c.pad].base == c.mat && h !in r.cues) &&
      (!c.stayOn && c.duration > 0.0 && (c.mat.None? || w.pads[c.pad].hasRenderer) ==>
         h in r.cues && r.cues[h].phase == Holding(StartWait(c.duration, f).value)) &&
      (c.mat.None? && (c.stayOn || c.duration > 0.0) ==> r.pads == w.pads) &&
      (c.mat.Some? && !w.pads[c.pad].hasRenderer ==> r.pads == w.pads)
  {
    var t := w.cues[h];
    match ResumeWait(t.phase.wait, f)
    case Some(wt) => w.(cues := w.cues[h := t.(phase := t.phase.(wait := wt))])
    case None =>
      var w1 := w.(cues := w.cues - {h});
      if t.phase.Delaying? then Proceed(w1, f, h, t.cue) else Restore(w1, t.cue.pad)
  }

  /** The current pass's wait is over: it waited one frame, or its pause-aware wait is due. */
  predicate PassOver(t: LoopTask)
  {
    t.phase.NextFrame? || Due(t.phase.wait)
  }

  /**
   A loop coroutine resumed in frame f: its wait advances, or the pass is
   over and it either fires the next pass or ends, dropping its origin's entry.
   */
  function ResumeLoop(w: Director, f: Frame, h: Handle): (r: Director)
    requires h in w.loops
    ensures r.pads.Keys == w.pads.Keys
    ensures f.frozen && w.loops[h].phase.Settling? && !Due(w.loops[h].phase.wait) ==> r == w
    ensures w.loops[h].phase.Settling? && !Due(w.loops[h].phase.wait) ==>
      r.pads == w.pads && r.cues == w.cues && r.lightRoutines == w.lightRoutines &&
      r.stateLoops == w.stateLoops && r.nextHandle == w.nextHandle &&
      r.loops == w.loops[h := LoopTask(w.loops[h].spec,
                          Settling(Wait(w.loops[h].phase.wait.timer + Gain(f), w.loops[h].phase.wait.target)))]
    ensures PassOver(w.loops[h]) && w.loops[h].spec.loop ==>
      h in r.loops && r.loops[h].spec == w.loops[h].spec && r.stateLoops == w.stateLoops &&
      r.loops == w.loops[h := r.loops[h]] &&
      (MaxEnd(w.loops[h].spec.steps) > 0.0 ==>
         r.loops[h].phase == Settling(Wait(Gain(f), MaxEnd(w.loops[h].spec.steps)))) &&
      (MaxEnd(w.loops[h].spec.steps) == 0.0 ==> r.loops[h].phase == NextFrame) &&
      PassFired(w, r, w.loops[h].spec.steps)
    ensures PassOver(w.loops[h]) && !w.loops[h].spec.loop ==>
      r.loops == w.loops - {h} && r.stateLoops == w.stateLoops - {w.loops[h].spec.origin} &&
      r.pads == w.pads && r.cues == w.cues && r.lightRoutines == w.lightRoutines &&
      r.palette == w.palette && r.nextHandle == w.nextHandle
  {
    var t := w.loops[h];
    var next := if t.phase.Settling? then ResumeWait(t.phase.wait, f) else None;
    match next
    case Some(wt) => w.(loops := w.loops[h := t.(phase := Settling(wt))])
    case None =>
      if t.spec.loop then RunPass(w, f, h, t.spec)
      else
        var w1 := w.(loops := w.loops - {h});
        if t.spec.origin in w1.stateLoops then w1.(stateLoops := w1.stateLoops - {t.spec.origin}) else w1
  }

  /** The next pass of a looping state, once the current one is over, leaves the cues its steps started. */
  lemma ResumeLoopCues(w: Director, f: Frame, h: Handle)
    requires h in w.loops && PassOver(w.loops[h]) && w.loops[h].spec.loop
    ensures PassCues(w, f, ResumeLoop(w, f, h), w.loops[h].spec.steps)
  {
    RunPassCues(w, f, h, w.loops[h].spec);
  }

  /**
   Resume one handle; handles of finished or stopped coroutines are skipped.
   Resuming one coroutine neither stops nor alters any other running loop,
   and alters or revives no other cue older than the resumption.
   */
  function Resume(w: Director, f: Frame, h: Handle): (r: Director)
    ensures h !in w.cues && h !in w.loops ==> r == w
    ensures r.pads.Keys == w.pads.Keys && r.palette == w.palette && r.nextHandle >= w.nextHandle
    ensures forall k :: k in r.loops && k != h ==> k in w.loops && r.loops[k] == w.loops[k]
    ensures forall k :: k in w.loops && k != h ==> k in r.loops
    ensures forall k :: k in r.cues && k != h && k < w.nextHandle ==> k in w.cues && r.cues[k] == w.cues[k]
  {
    if h in w.cues && w.cues[h].cue.pad in w.pads then ResumeCue(w, f, h)
    else if h in w.loops then ResumeLoop(w, f, h)
    else w
  }

  /**
   Resume handles in the given order, one after the other, within one frame.
   A loop whose handle is not in the order keeps running exactly as it was,
   and an older cue not in the order that is still running afterwards is
   unchanged.
   */
  function ResumeAll(w: Director, f: Frame, order: seq<Handle>): (r: Director)
    ensures |order| == 0 ==> r == w
    ensures r.pads.Keys == w.pads.Keys && r.palette == w.palette && r.nextHandle >= w.nextHandle
    ensures forall k :: k in r.loops && k !in order ==> k in w.loops && r.loops[k] == w.loops[k]
    ensures forall k :: k in w.loops && k !in order ==> k in r.loops
    ensures forall k :: k in r.cues && k !in order && k < w.nextHandle ==> k in w.cues && r.cues[k] == w.cues[k]
    decreases |order|
  {
    if |order| == 0 then w else ResumeAll(Resume(w, f, order[0]), f, order[1..])
  }

  /** The cue under handle h resumed once in each frame of fs for as long as it runs; nothing else is resumed. */
  function FollowCue(w: Director, fs: seq<Frame>, h: Handle): (r: Director)
    ensures r.pads.Keys == w.pads.Keys && LoopsKept(w, r) && r.nextHandle == w.nextHandle
    decreases |fs|
  {
    if |fs| == 0 || h !in w.cues || w.cues[h].cue.pad !in w.pads then w
    else FollowCue(ResumeCue(w, fs[0], h), fs[1..], h)
  }

  /**
   A lit cue followed frame by frame keeps running exactly as long as its
   pause-aware wait does; when it ends, its pad shows the base material it
   has at that moment, and the base itself never changed.
   */
  lemma {:induction false} FollowHolding(w: Director, fs: seq<Frame>, h: Handle)
    requires h in w.cues && w.cues[h].phase.Holding? && w.cues[h].cue.pad in w.pads
    ensures var p := w.cues[h].cue.pad; var r := FollowCue(w, fs, h);
      && p in r.pads && r.pads[p].base == w.pads[p].base
      && (h in r.cues <==> Drive(w.cues[h].phase.wait, fs).Some?)
      && (h !in r.cues && w.pads[p].base.Some? && w.pads[p].hasRenderer ==> r.pads[p].material == w.pads[p].base)
    decreases |fs|
  {
    if |fs| > 0 {
      var v := ResumeCue(w, fs[0], h);
      if !Due(w.cues[h].phase.wait) {
        FollowHolding(v, fs[1..], h);
      }
    }
  }

  /**
   A delayed stay-on cue followed frame by frame fires exactly when its
   pause-aware delay ends; from then on its material is the pad's base and is
   shown, and it runs no more.
   */
  lemma {:induction false} FollowStayOn(w: Director, fs: seq<Frame>, h: Handle)
    requires h in w.cues && w.cues[h].phase.Delaying? && w.cues[h].cue.stayOn
    requires w.cues[h].cue.pad in w.pads && w.pads[w.cues[h].cue.pad].hasRenderer && w.cues[h].cue.mat.Some?
    ensures var c := w.cues[h].cue; var r := FollowCue(w, fs, h);
      && r.pads[c.pad].hasRenderer
      && (h in r.cues <==> Drive(w.cues[h].phase.wait, fs).Some?)
      && (h !in r.cues ==> r.pads[c.pad].base == c.mat && r.pads[c.pad].material == c.mat)
    decreases |fs|
  {
    if |fs| > 0 {
      var v := ResumeCue(w, fs[0], h);
      if !Due(w.cues[h].phase.wait) {
        FollowStayOn(v, fs[1..], h);
      } else {
        var c := w.cues[h].cue;
        assert v == Proceed(w.(cues := w.cues - {h}), fs[0], h, c);
      }
    }
  }

  /**
   A stay-on cue makes its colour the pad's new base. Issued in frame f with
   any delay, it fires exactly when that delay has elapsed over the frames gs
   that follow. A later ordinary, undelayed cue on that pad, issued in frame
   g, stays lit exactly as long as its pause-aware duration over the frames
   fs that follow, and when it ends the pad falls back to the stay-on colour
   rather than to the material the pad started with.
   */
  lemma StayOnRebases(w: Director, f: Frame, p: int, stay: CueCall, gs: seq<Frame>, g: Frame, later: CueCall, fs: seq<Frame>)
    requires p in w.pads && w.pads[p].hasRenderer && w.nextHandle !in w.cues
    requires stay.pad == p && stay.stayOn && SafeGet(w.palette, stay.slot).Some?
    requires later.pad == p && !later.stayOn && later.delay <= 0.0 && later.duration > 0.0
    ensures var v := FollowCue(LightOneBySlot(w, f, stay), gs, w.nextHandle);
      && (w.nextHandle !in v.cues <==> WaitOrPause(stay.delay, f, gs).None?)
      && (w.nextHandle !in v.cues ==>
            var h := v.nextHandle;
            var r := FollowCue(LightOneBySlot(v, g, later), fs, h);
            && (h in r.cues <==> WaitOrPause(later.duration, g, fs).Some?)
            && (h !in r.cues ==> r.pads[p].material == SafeGet(w.palette, stay.slot)))
  {
    var mat := SafeGet(w.palette, stay.slot);
    var w1 := LightOneBySlot(w, f, stay);
    var h0 := w.nextHandle;
    var v := FollowCue(w1, gs, h0);
    if stay.delay > 0.0 {
      FollowStayOn(w1, gs, h0);
    } else {
      assert h0 !in w1.cues;
      assert v == w1;
    }
    if h0 !in v.cues {
      var h := v.nextHandle;
      var w2 := LightOneBySlot(v, g, later);
      assert w2.cues[h] == CueTask(Cue(p, SafeGet(v.palette, later.slot), later.duration, false),
                                   Holding(StartWait(later.duration, g).value));
      FollowHolding(w2, fs, h);
    }
  }
}

=== FILE: pad_setup.dfy ===
/**
 Scene start-up: each pad caches its renderer's material as its base, and the
 light director indexes the pads it finds by pad index, the first pad with a
 given index winning.
 */
module PadSetup {
  import opened Wrappers
  import opened Palette
  import opened Lights
  import Scheduler

  /** A pad object as the scene holds it: its index, whether it has a renderer, that renderer's material. */
  datatype PadObject = PadObject(index: int, hasRenderer: bool, initial: Material)

  /** A pad as Awake leaves it: showing its base, and holding a base only if it has a renderer. */
  predicate Fresh(l: PadLight)
  {
    l.material == l.base && (l.base.Some? ==> l.hasRenderer)
  }

  /** Awake: with a renderer, the base is the material the renderer starts with; without one, nothing. */
  function Awake(p: PadObject): (l: PadLight)
    ensures l.hasRenderer == p.hasRenderer
    ensures p.hasRenderer ==> l.base == p.initial && l.material == p.initial
    ensures !p.hasRenderer ==> l.base.None? && l.material.None?
    ensures Fresh(l)
  {
    if p.hasRenderer then PadLight(true, p.initial, p.initial) else PadLight(false, None, None)
  }

  /** Pad i is the first in the list with its index. */
  predicate FirstOfIndex(pads: seq<PadObject>, i: int)
    requires 0 <= i < |pads|
  {
    forall j :: 0 <= j < i ==> pads[j].index != pads[i].index
  }

  /** The pad indexes occurring in a list of pads. */
  function Indexes(pads: seq<PadObject>): set<int>
    decreases |pads|
  {
    if |pads| == 0 then {} else Indexes(pads[..|pads| - 1]) + {pads[|pads| - 1].index}
  }

  /** An index occurs exactly when some pad carries it. */
  lemma {:induction false} IndexesExact(pads: seq<PadObject>, k: int)
    ensures k in Indexes(pads) <==> exists i :: 0 <= i < |pads| && pads[i].index == k
    decreases |pads|
  {
    if |pads| > 0 {
      var init := pads[..|pads| - 1];
      IndexesExact(init, k);
      if k in Indexes(init) {
        var i :| 0 <= i < |init| && init[i].index == k;
        assert pads[i].index == k;
      } else if exists i :: 0 <= i < |pads| && pads[i].index == k {
        var i :| 0 <= i < |pads| && pads[i].index == k;
        if i < |pads| - 1 {
          assert init[i].index == k;
        }
      }
    }
  }

  /** The director's pad-by-index table. */
  type PadTable = map<int, PadLight>

  /**
   The padByIndex map: one entry per index occurring among the pads, holding
   the awakened first pad with that index; later duplicates are ignored.
   */
  method BuildPadIndex(pads: seq<PadObject>) returns (table: PadTable)
    ensures table.Keys == Indexes(pads)
    ensures forall i :: 0 <= i < |pads| && FirstOfIndex(pads, i) ==> pads[i].index in table && table[pads[i].index] == Awake(pads[i])
    ensures forall k :: k in table ==> Fresh(table[k])
  {
    table := map[];
    var i := 0;
    while i < |pads|
      invariant 0 <= i <= |pads|
      invariant forall j :: 0 <= j < i ==> pads[j].index in table
      invariant table.Keys == Indexes(pads[..i])
      invariant forall j :: 0 <= j < i && FirstOfIndex(pads, j) ==> pads[j].index in table && table[pads[j].index] == Awake(pads[j])
      invariant forall k :: k in table ==> Fresh(table[k])
    {
      var p := pads[i];
      assert pads[..i + 1][..i] == pads[..i];
      if p.index !in table {
        table := table[p.index := Awake(p)];
      } else {
        IndexesExact(pads[..i], p.index);
        var j :| 0 <= j < i && pads[..i][j].index == p.index;
        assert pads[j].index == p.index;
        assert !FirstOfIndex(pads, i);
      }
      i := i + 1;
    }
    assert pads[..|pads|] == pads;
  }

  /** The director before any press: the indexed pads and the palette, nothing running. */
  function Startup(padByIndex: map<int, PadLight>, palette: Option<seq<Material>>): (w: Director)
    ensures w.pads == padByIndex && w.palette == palette
    ensures w.lightRoutines == map[] && w.stateLoops == map[]
    ensures w.cues == map[] && w.loops == map[]
  {
    Director(padByIndex, palette, map[], map[], map[], map[], 0)
  }

  /** Pads fresh from Awake show their base, so start-up satisfies the director's invariant. */
  lemma StartupInv(m: map<int, PadLight>, palette: Option<seq<Material>>)
    requires forall k :: k in m ==> Fresh(m[k])
    ensures Scheduler.Inv(Startup(m, palette))
  {
  }
}

=== FILE: pads.dfy ===
/**
 The pad dispatcher: a pad's profiles, its cursor over them, and the fan-out
 of the selected profile's action entries to the light director and the
 audio collaborator.
 */
module Pads {
  import opened Wrappers
  import opened PauseAware
  import opened Audio
  import opened LightStates
  import opened Lights
  import Scheduler

  datatype ActionKind = Sample | Light | State | Transport

  /** One authored action entry; each kind reads only its own fields. */
  datatype ActionEntry = ActionEntry(
    kind: ActionKind,
    startDelay: real,
    clip: Option<int>, loop: bool, gain: real,                                  // Sample
    colorSlot: int, lightStayOn: bool, lightDuration: real, lightDelay: real,   // Light
    stateAsset: Option<LightState>, loopState: bool,                            // State
    transport: string)                                                          // Transport

  datatype Profile = Profile(name: string, actions: seq<ActionEntry>)

  /** A pad as the dispatcher sees it: its index, profiles and profile cursor. */
  datatype Pad = Pad(index: int, profiles: seq<Profile>, cursor: nat)

  /** What running actions did: the director afterwards and the audio events sent. */
  datatype Effect = Effect(director: Director, events: seq<AudioEvent>)

  /** The LightOneBySlot call of a Light action: this pad, clamped duration and delay. */
  function LightCall(index: int, a: ActionEntry): (c: CueCall)
    ensures c.pad == index && c.slot == a.colorSlot && c.stayOn == a.lightStayOn
    ensures c.duration >= 0.01 && c.delay >= 0.0
    ensures a.lightDuration >= 0.01 ==> c.duration == a.lightDuration
    ensures a.lightDelay >= 0.0 ==> c.delay == a.lightDelay
  {
    CueCall(index, a.colorSlot, Max(0.01, a.lightDuration), Max(0.0, a.lightDelay), a.lightStayOn)
  }

  /** Does running this entry start a sequence loop? */
  predicate StartsLoop(a: ActionEntry)
  {
    a.kind.State? && Playable(a.stateAsset)
  }

  /** The pad's own origin entry is the one it had, or one drawn since w. */
  ghost predicate OwnEntryKept(w: Director, r: Director, index: int)
  {
    index in r.stateLoops ==>
      (index in w.stateLoops && r.stateLoops[index] == w.stateLoops[index]) || r.stateLoops[index] >= w.nextHandle
  }

  /**
   RunAction after its start delay: Light and State go to the light director
   with this pad's index, Sample and Transport become audio events, each only
   when its clip or command is present and an audio hub exists.
   */
  function RunAction(w: Director, f: Frame, hub: bool, index: int, a: ActionEntry, velocity: real): (r: Effect)
    ensures a.kind.Sample? || a.kind.Transport? ==> r.director == w
    ensures a.kind.Light? || a.kind.State? ==> r.events == []
    ensures a.kind.Light? ==> r.director == LightOneBySlot(w, f, LightCall(index, a))
    ensures a.kind.State? && a.stateAsset.None? ==> r.director == w
    ensures a.kind.State? && a.stateAsset.Some? ==> r.director == TriggerState(w, f, index, a.stateAsset, a.loopState)
    ensures a.kind.Sample? ==> (r.events != [] <==> hub && a.clip.Some?)
    ensures a.kind.Sample? && r.events != [] ==>
      r.events == [if a.loop then ToggleLoop(a.clip.value, a.gain * velocity) else OneShot(a.clip.value, a.gain * velocity)]
    ensures a.kind.Transport? ==> (r.events != [] <==> hub && |a.transport| > 0)
    ensures a.kind.Transport? && r.events != [] ==> r.events == [TransportCommand(a.transport)]
    ensures forall q :: q != index ==> (q in r.director.stateLoops <==> q in w.stateLoops)
    ensures forall q :: q in w.stateLoops && q != index ==> r.director.stateLoops[q] == w.stateLoops[q]
    ensures !StartsLoop(a) && index !in w.stateLoops ==> index !in r.director.stateLoops
    ensures forall k :: k in r.director.loops && k < w.nextHandle ==> k in w.loops
    ensures OtherLoopsRun(w, r.director, index)
    ensures OwnEntryKept(w, r.director, index)
    ensures r.director.nextHandle >= w.nextHandle
    ensures r.director.pads.Keys == w.pads.Keys
  {
    match a.kind
    case Transport =>
      Effect(w, if |a.transport| > 0 && hub then [TransportCommand(a.transport)] else [])
    case Sample =>
      if a.clip.Some? && hub then
        var gain := a.gain * velocity;
        Effect(w, [if a.loop then ToggleLoop(a.clip.value, gain) else OneShot(a.clip.value, gain)])
      else Effect(w, [])
    case Light =>
      Effect(LightOneBySlot(w, f, LightCall(index, a)), [])
    case State =>
      if a.stateAsset.Some? then Effect(TriggerState(w, f, index, a.stateAsset, a.loopState), [])
      else Effect(w, [])
  }

  /** Running entries one after the other, each on the director the previous one left, collecting their events in order. */
  function RunEach(w: Director, f: Frame, hub: bool, index: int, entries: seq<ActionEntry>, velocity: real): (r: Effect)
    ensures forall q :: q != index ==> (q in r.director.stateLoops <==> q in w.stateLoops)
    ensures forall q :: q in w.stateLoops && q != index ==> r.director.stateLoops[q] == w.stateLoops[q]
    ensures (forall a :: a in entries ==> !StartsLoop(a)) && index !in w.stateLoops ==> index !in r.director.stateLoops
    ensures forall k :: k in r.director.loops && k < w.nextHandle ==> k in w.loops
    ensures OtherLoopsRun(w, r.director, index) && OwnEntryKept(w, r.director, index)
    ensures r.director.nextHandle >= w.nextHandle
    ensures r.director.pads.Keys == w.pads.Keys
    decreases |entries|
  {
    if |entries| == 0 then Effect(w, [])
    else
      var e := RunAction(w, f, hub, index, entries[0], velocity);
      var rest := RunEach(e.director, f, hub, index, entries[1..], velocity);
      Effect(rest.director, e.events + rest.events)
  }

  /** The entries without a start delay, in list order. */
  function Immediate(actions: seq<ActionEntry>): (r: seq<ActionEntry>)
    ensures forall a :: a in r ==> a in actions && a.startDelay <= 0.0
    decreases |actions|
  {
    if |actions| == 0 then []
    else (if actions[0].startDelay <= 0.0 then [actions[0]] else []) + Immediate(actions[1..])
  }

  /** The entries with a start delay, in list order. */
  function Postponed(actions: seq<ActionEntry>): (r: seq<ActionEntry>)
    ensures forall a :: a in r ==> a in actions && a.startDelay > 0.0
    decreases |actions|
  {
    if |actions| == 0 then []
    else (if actions[0].startDelay > 0.0 then [actions[0]] else []) + Postponed(actions[1..])
  }

  /** Splitting by start delay loses and duplicates nothing. */
  lemma {:induction false} SplitKeepsAll(actions: seq<ActionEntry>)
    ensures multiset(Immediate(actions)) + multiset(Postponed(actions)) == multiset(actions)
    decreases |actions|
  {
    if |actions| > 0 {
      var a := actions[0];
      SplitKeepsAll(actions[1..]);
      assert actions == [a] + actions[1..];
      if a.startDelay <= 0.0 {
        assert Immediate(actions) == [a] + Immediate(actions[1..]);
        assert Postponed(actions) == Postponed(actions[1..]);
      } else {
        assert Immediate(actions) == Immediate(actions[1..]);
        assert Postponed(actions) == [a] + Postponed(actions[1..]);
      }
    }
  }

  /** The entries of a profile run now, in order, and those that wait for their start delay. */
  datatype Dispatch = Dispatch(director: Director, events: seq<AudioEvent>, ran: seq<ActionEntry>, deferred: seq<ActionEntry>)

  /**
   Every entry is dispatched exactly once: an entry without a start delay runs
   at once, in list order; an entry with one is handed back to run later.
   */
  function DispatchAll(w: Director, f: Frame, hub: bool, index: int, actions: seq<ActionEntry>, velocity: real): (r: Dispatch)
    ensures multiset(r.ran) + multiset(r.deferred) == multiset(actions)
    ensures forall a :: a in r.ran ==> a.startDelay <= 0.0
    ensures forall a :: a in r.deferred ==> a.startDelay > 0.0
    ensures forall q :: q != index ==> (q in r.director.stateLoops <==> q in w.stateLoops)
    ensures forall q :: q in w.stateLoops && q != index ==> r.director.stateLoops[q] == w.stateLoops[q]
    ensures (forall a :: a in r.ran ==> !StartsLoop(a)) && index !in w.stateLoops ==> index !in r.director.stateLoops
    ensures forall k :: k in r.director.loops && k < w.nextHandle ==> k in w.loops
    ensures OtherLoopsRun(w, r.director, index) && OwnEntryKept(w, r.director, index)
    ensures r.director.nextHandle >= w.nextHandle
    ensures r.director.pads.Keys == w.pads.Keys
    decreases |actions|
  {
    if |actions| == 0 then Dispatch(w, [], [], [])
    else
      var a := actions[0];
      assert actions == [a] + actions[1..];
      if a.startDelay > 0.0 then
        var rest := DispatchAll(w, f, hub, index, actions[1..], velocity);
        rest.(deferred := [a] + rest.deferred)
      else
        var e := RunAction(w, f, hub, index, a, velocity);
        var rest := DispatchAll(e.director, f, hub, index, actions[1..], velocity);
        Dispatch(rest.director, e.events + rest.events, [a] + rest.ran, rest.deferred)
  }

  lemma RunEachCons(w: Director, f: Frame, hub: bool, index: int, a: ActionEntry, rest: seq<ActionEntry>, velocity: real)
    ensures var e := RunAction(w, f, hub, index, a, velocity);
      var t := RunEach(e.director, f, hub, index, rest, velocity);
      RunEach(w, f, hub, index, [a] + rest, velocity) == Effect(t.director, e.events + t.events)
  {
    assert ([a] + rest)[0] == a && ([a] + rest)[1..] == rest;
  }

  /**
   Dispatching runs exactly the entries without a start delay, in list
   order, each on the director the previous one left, and collects their
   events in that order; the entries with a start delay are handed back in
   list order.
   */
  lemma {:induction false} DispatchRunsImmediate(w: Director, f: Frame, hub: bool, index: int, actions: seq<ActionEntry>, velocity: real)
    ensures var r := DispatchAll(w, f, hub, index, actions, velocity);
      && r.ran == Immediate(actions) && r.deferred == Postponed(actions)
      && Effect(r.director, r.events) == RunEach(w, f, hub, index, Immediate(actions), velocity)
    decreases |actions|
  {
    if |actions| > 0 {
      var a := actions[0];
      if a.startDelay > 0.0 {
        DispatchRunsImmediate(w, f, hub, index, actions[1..], velocity);
      } else {
        var e := RunAction(w, f, hub, index, a, velocity);
        DispatchRunsImmediate(e.director, f, hub, index, actions[1..], velocity);
        var rest := DispatchAll(e.director, f, hub, index, actions[1..], velocity);
        assert DispatchAll(w, f, hub, index, actions, velocity) ==
          Dispatch(rest.director, e.events + rest.events, [a] + rest.ran, rest.deferred);
        RunEachCons(w, f, hub, index, a, Immediate(actions[1..]), velocity);
      }
    }
  }

  /** The profile a press uses: the cursor, or 0 when the cursor is out of range. */
  function Selected(n: nat, cursor: nat): (s: nat)
    requires n > 0
    ensures s < n
    ensures cursor < n ==> s == cursor
    ensures cursor >= n ==> s == 0
  {
    if cursor >= n then 0 else cursor
  }

  /** The cursor after a press: one past the selected profile, wrapping to 0. */
  function Advance(n: nat, cursor: nat): (c: nat)
    requires n > 0
    ensures c == (Selected(n, cursor) + 1) % n
  {
    var next := Selected(n, cursor) + 1;
    if next >= n then 0 else next
  }

  /** Everything a press did. */
  datatype Pressed = Pressed(
    pad: Pad, director: Director, events: seq<AudioEvent>,
    selected: Option<nat>, ran: seq<ActionEntry>, deferred: seq<ActionEntry>)

  /**
   Press: first stop any loop this pad originated; with no profiles stop
   there; otherwise dispatch every entry of the selected profile and advance
   the cursor, even over a profile with no entries.
   */
  function Press(pad: Pad, velocity: real, w: Director, f: Frame, hub: bool): (r: Pressed)
    ensures r.pad.index == pad.index && r.pad.profiles == pad.profiles
    ensures |pad.profiles| == 0 ==>
      r.pad == pad && r.director == StopStateLoop(w, pad.index) && r.events == [] &&
      r.selected.None? && r.ran == [] && r.deferred == []
    ensures |pad.profiles| > 0 ==> r.selected.Some? && r.selected.value < |pad.profiles|
    ensures |pad.profiles| > 0 && pad.cursor < |pad.profiles| ==> r.selected == Some(pad.cursor)
    ensures |pad.profiles| > 0 && pad.cursor >= |pad.profiles| ==> r.selected == Some(0)
    ensures |pad.profiles| > 0 ==> r.pad.cursor == (r.selected.value + 1) % |pad.profiles|
    ensures |pad.profiles| > 0 ==>
      multiset(r.ran) + multiset(r.deferred) == multiset(pad.profiles[r.selected.value].actions)
    ensures forall a :: a in r.ran ==> a.startDelay <= 0.0
    ensures forall a :: a in r.deferred ==> a.startDelay > 0.0
    ensures forall q :: q != pad.index ==> (q in r.director.stateLoops <==> q in w.stateLoops)
    ensures forall q :: q in w.stateLoops && q != pad.index ==> r.director.stateLoops[q] == w.stateLoops[q]
    ensures (forall a :: a in r.ran ==> !StartsLoop(a)) ==> pad.index !in r.director.stateLoops
    ensures pad.index in w.stateLoops && w.stateLoops[pad.index] < w.nextHandle ==>
      w.stateLoops[pad.index] !in r.director.loops
    ensures OtherLoopsRun(w, r.director, pad.index)
  {
    var w1 := StopStateLoop(w, pad.index);
    var n := |pad.profiles|;
    if n == 0 then Pressed(pad, w1, [], None, [], [])
    else
      var c := Selected(n, pad.cursor);
      var d := DispatchAll(w1, f, hub, pad.index, pad.profiles[c].actions, velocity);
      Pressed(pad.(cursor := Advance(n, pad.cursor)), d.director, d.events, Some(c), d.ran, d.deferred)
  }

  /**
   What a press did with the selected profile: after stopping the pad's own
   loop, it ran exactly the entries without a start delay, in list order,
   each on the director the previous one left, and sent their audio events
   in that order.
   */
  lemma PressDispatch(pad: Pad, velocity: real, w: Director, f: Frame, hub: bool)
    requires |pad.profiles| > 0
    ensures var r := Press(pad, velocity, w, f, hub);
      var actions := pad.profiles[Selected(|pad.profiles|, pad.cursor)].actions;
      && r.ran == Immediate(actions) && r.deferred == Postponed(actions)
      && Effect(r.director, r.events) == RunEach(StopStateLoop(w, pad.index), f, hub, pad.index, Immediate(actions), velocity)
  {
    DispatchRunsImmediate(StopStateLoop(w, pad.index), f, hub, pad.index,
                          pad.profiles[Selected(|pad.profiles|, pad.cursor)].actions, velocity);
  }

  lemma {:induction false} RunActionInv(w: Director, f: Frame, hub: bool, index: int, a: ActionEntry, velocity: real)
    requires Scheduler.Inv(w)
    ensures Scheduler.Inv(RunAction(w, f, hub, index, a, velocity).director)
  {
    match a.kind
    case Light => Scheduler.LightOneBySlotInv(w, f, LightCall(index, a));
    case State => Scheduler.TriggerStateInv(w, f, index, a.stateAsset, a.loopState);
    case _ =>
  }

  lemma {:induction false} DispatchAllInv(w: Director, f: Frame, hub: bool, index: int, actions: seq<ActionEntry>, velocity: real)
    requires Scheduler.Inv(w)
    ensures Scheduler.Inv(DispatchAll(w, f, hub, index, actions, velocity).director)
    decreases |actions|
  {
    if |actions| > 0 {
      var a := actions[0];
      if a.startDelay > 0.0 {
        DispatchAllInv(w, f, hub, index, actions[1..], velocity);
      } else {
        RunActionInv(w, f, hub, index, a, velocity);
        DispatchAllInv(RunAction(w, f, hub, index, a, velocity).director, f, hub, index, actions[1..], velocity);
      }
    }
  }

  /** A press keeps the light director's invariant. */
  lemma PressInv(pad: Pad, velocity: real, w: Director, f: Frame, hub: bool)
    requires Scheduler.Inv(w)
    ensures Scheduler.Inv(Press(pad, velocity, w, f, hub).director)
  {
    Scheduler.StopStateLoopInv(w, pad.index);
    var w1 := StopStateLoop(w, pad.index);
    var n := |pad.profiles|;
    if n > 0 {
      DispatchAllInv(w1, f, hub, pad.index, pad.profiles[Selected(n, pad.cursor)].actions, velocity);
    }
  }

  /** The profiles selected by k presses in a row, each press seeing the previous one's results. */
  function Selections(pad: Pad, velocity: real, w: Director, f: Frame, hub: bool, k: nat): seq<Option<nat>>
    decreases k
  {
    if k == 0 then []
    else
      var r := Press(pad, velocity, w, f, hub);
      [r.selected] + Selections(r.pad, velocity, r.director, f, hub, k - 1)
  }

  lemma MulBounds(k: int, n: int)
    requires n > 0
    ensures k >= 1 ==> k * n >= n
    ensures k <= -1 ==> k * n <= -n
  {
  }
  lemma ModUnique(x: int, q: int, r: int, n: int)
    requires n > 0 && 0 <= r < n && x == q * n + r
    ensures x % n == r
  {
    var q' := x / n;
    assert x == q' * n + x % n;
    var k := q - q';
    assert k * n == x % n - r;
    MulBounds(k, n);
  }
  lemma ModShift(i: nat, n: nat)
    requires n > 0
    ensures (n + i) % n == i % n
  {
    var q := i / n;
    assert i == q * n + i % n;
    assert n + i == (q + 1) * n + i % n;
    ModUnique(n + i, q + 1, i % n, n);
  }
  lemma ModSuccessor(a: nat, i: nat, n: nat)
    requires n > 0 && a < n
    ensures ((a + 1) % n + i) % n == (a + 1 + i) % n
    ensures ((a + 1) % n + i) % n == (a + (i + 1)) % n
  {
    assert a + 1 + i == a + (i + 1);
    if a + 1 == n {
      assert (a + 1) % n == 0;
      ModShift(i, n);
    } else {
      assert (a + 1) % n == a + 1;
    }
  }

  /** One press selects the current profile and moves the cursor to the next one. */
  lemma PressStep(pad: Pad, velocity: real, w: Director, f: Frame, hub: bool)
    requires |pad.profiles| > 0
    ensures var r := Press(pad, velocity, w, f, hub);
      r.pad.profiles == pad.profiles &&
      r.selected == Some(Selected(|pad.profiles|, pad.cursor)) &&
      Selected(|pad.profiles|, r.pad.cursor) == Turn(Selected(|pad.profiles|, pad.cursor), 1, |pad.profiles|)
  {
  }

  /** The profile i presses after the one at start, counting round n profiles. */
  function Turn(start: nat, i: nat, n: nat): (t: nat)
    requires n > 0
    ensures t < n
  {
    (start + i) % n
  }

  /** The cursor cycles: press i (from 0) selects profile (first + i) mod n. */
  lemma {:induction false} Cycling(pad: Pad, velocity: real, w: Director, f: Frame, hub: bool, k: nat)
    requires |pad.profiles| > 0
    ensures var s := Selections(pad, velocity, w, f, hub, k);
      |s| == k &&
      forall i :: 0 <= i < k ==> s[i] == Some(Turn(Selected(|pad.profiles|, pad.cursor), i, |pad.profiles|))
    decreases k
  {
    if k > 0 {
      var n := |pad.profiles|;
      var r := Press(pad, velocity, w, f, hub);
      var c := Selected(n, pad.cursor);
      PressStep(pad, velocity, w, f, hub);
      Cycling(r.pad, velocity, r.director, f, hub, k - 1);
      var rest := Selections(r.pad, velocity, r.director, f, hub, k - 1);
      var s := Selections(pad, velocity, w, f, hub, k);
      assert s == [Some(c)] + rest;
      var next := Selected(|r.pad.profiles|, r.pad.cursor);
      assert |r.pad.profiles| == n && next == Turn(c, 1, n);
      ShiftedCycle(s, rest, c, next, n, k);
    }
  }

  /** Prepending the current profile to the cycle from the next one gives the cycle from the current one. */
  lemma ShiftedCycle(s: seq<Option<nat>>, rest: seq<Option<nat>>, c: nat, next: nat, n: nat, k: nat)
    requires 0 < n && c < n && 0 < k && next == Turn(c, 1, n)
    requires s == [Some(c)] + rest && |rest| == k - 1
    requires forall i :: 0 <= i < k - 1 ==> rest[i] == Some(Turn(next, i, n))
    ensures |s| == k
    ensures forall i :: 0 <= i < k ==> s[i] == Some(Turn(c, i, n))
  {
    forall i | 0 <= i < k
      ensures s[i] == Some(Turn(c, i, n))
    {
      if i == 0 {
        assert c % n == c;
      } else {
        assert s[i] == rest[i - 1];
        ModSuccessor(c, i - 1, n);
      }
    }
  }

  /** Three profiles, four presses from a fresh pad: profiles 0, 1, 2, then 0 again. */
  lemma ThreeProfilesFourPresses(index: int, ps: seq<Profile>, velocity: real, w: Director, f: Frame, hub: bool)
    requires |ps| == 3
    ensures Selections(Pad(index, ps, 0), velocity, w, f, hub, 4) == [Some(0), Some(1), Some(2), Some(0)]
  {
    Cycling(Pad(index, ps, 0), velocity, w, f, hub, 4);
  }
}

=== FILE: palette.dfy ===
/**
 The cue palette: material slots of the light director and its safe lookup.
 A material is an opaque token; None stands for a null material.
 */
module Palette {
  import opened Wrappers

  type Material = Option<int>

  /** The palette is declared with nine slots, all null until authored. */
  const PaletteSize: nat := 9

  function DefaultPalette(): (p: Option<seq<Material>>)
    ensures p.Some? && |p.value| == PaletteSize
    ensures forall i :: 0 <= i < |p.value| ==> p.value[i].None?
  {
    Some(seq(PaletteSize, _ => None))
  }

  /** The slot holds a usable material. */
  predicate Usable(palette: Option<seq<Material>>, slot: int)
  {
    palette.Some? && 0 <= slot < |palette.value| && palette.value[slot].Some?
  }

  /**
   SafeGet: the slot's material when the slot is in range and not null;
   otherwise slot 0's material, or null for a missing or empty palette.
   */
  function SafeGet(palette: Option<seq<Material>>, slot: int): (m: Material)
    ensures Usable(palette, slot) ==> m == palette.value[slot]
    ensures !Usable(palette, slot) && palette.Some? && |palette.value| > 0 ==> m == palette.value[0]
    ensures palette.None? || |palette.value| == 0 ==> m.None?
    ensures m.Some? ==> palette.Some? && m in palette.value
  {
    if palette.None? || slot < 0 || slot >= |palette.value| || palette.value[slot].None? then
      if palette.Some? && |palette.value| > 0 then palette.value[0] else None
    else
      palette.value[slot]
  }

  /** Until a palette slot is authored, every lookup, in range or not, gives a null material. */
  lemma UnauthoredPaletteLightsNothing(slot: int)
    ensures SafeGet(DefaultPalette(), slot).None?
  {
  }
}

=== FILE: pause_aware.dfy ===
/**
 Host frames and the pause-aware wait of the light director (WaitOrPause).

 A wait accumulates the delta time of every frame the pause clock does not
 freeze and finishes at the first resumption that finds the accumulator at or
 past its target.
 */
module PauseAware {
  import opened Wrappers

  /** Non-negative seconds: the type of a frame's delta time. */
  type Seconds = r: real | 0.0 <= r

  /** One host frame: its delta time and whether the pause clock freezes it. */
  datatype Frame = Frame(delta: Seconds, frozen: bool)

  /** What one frame adds to a pause-aware accumulator. */
  function Gain(f: Frame): Seconds
  {
    if f.frozen then 0.0 else f.delta
  }

  /** Unfrozen time carried by a run of frames. */
  function Elapsed(fs: seq<Frame>): Seconds
  {
    if |fs| == 0 then 0.0 else Gain(fs[0]) + Elapsed(fs[1..])
  }

  /** A suspended wait: time accumulated so far and the time to reach. */
  datatype Wait = Wait(timer: real, target: real)

  /** A wait is due when its next resumption ends it. */
  predicate Due(wt: Wait)
  {
    !(wt.timer < wt.target)
  }

  /**
   Starting WaitOrPause(target) in frame f runs it up to its first yield.
   None means it finished without ever yielding.
   */
  function StartWait(target: real, f: Frame): (r: Option<Wait>)
    ensures r.None? <==> target <= 0.0
    ensures r.Some? ==> r.value.target == target && r.value.timer == Gain(f) && !Due(Wait(0.0, target))
  {
    if 0.0 < target then Some(Wait(Gain(f), target)) else None
  }

  /** Resuming a suspended wait in frame f: None when it finishes there. */
  function ResumeWait(wt: Wait, f: Frame): (r: Option<Wait>)
    ensures r.None? <==> Due(wt)
    ensures r.Some? ==> r.value.target == wt.target && r.value.timer - wt.timer == Gain(f)
    ensures r.Some? && f.frozen ==> r.value == wt
  {
    if wt.timer < wt.target then Some(Wait(wt.timer + Gain(f), wt.target)) else None
  }

  /** Resumes a wait on each frame in turn; None once it has finished. */
  function Drive(wt: Wait, fs: seq<Frame>): Option<Wait>
    decreases |fs|
  {
    if |fs| == 0 then Some(wt)
    else match ResumeWait(wt, fs[0])
      case None => None
      case Some(next) => Drive(next, fs[1..])
  }

  /**
   The whole of WaitOrPause: started in frame `start`, then resumed on `fs`.
   None means it has finished; a wait still suspended holds all the unfrozen
   time of its start frame and of fs.
   */
  function WaitOrPause(target: real, start: Frame, fs: seq<Frame>): (r: Option<Wait>)
    ensures target <= 0.0 ==> r.None?
    ensures r.Some? ==> r.value == Wait(Elapsed([start] + fs), target)
  {
    match StartWait(target, start)
    case None => None
    case Some(wt) =>
      DriveExact(wt, fs);
      assert ([start] + fs)[1..] == fs;
      Drive(wt, fs)
  }

  lemma {:induction false} ElapsedAppend(a: seq<Frame>, b: seq<Frame>)
    ensures Elapsed(a + b) == Elapsed(a) + Elapsed(b)
  {
    if |a| > 0 {
      assert (a + b)[1..] == a[1..] + b;
      ElapsedAppend(a[1..], b);
    } else {
      assert a + b == b;
    }
  }

  /** Elapsed time never decreases along a run of frames. */
  lemma {:induction false} ElapsedPrefixMonotone(fs: seq<Frame>, i: nat, j: nat)
    requires i <= j <= |fs|
    ensures Elapsed(fs[..i]) <= Elapsed(fs[..j])
  {
    assert fs[..j] == fs[..i] + fs[i..j];
    ElapsedAppend(fs[..i], fs[i..j]);
  }

  lemma ElapsedStep(fs: seq<Frame>, j: nat)
    requires 0 < |fs| && j < |fs|
    ensures Elapsed(fs[..j + 1]) == Gain(fs[0]) + Elapsed(fs[1..][..j])
  {
    assert fs[..j + 1][1..] == fs[1..][..j];
  }

  /**
   A wait resumed on fs is still suspended afterwards exactly when every
   resumption found the accumulator short of the target; its timer then holds
   all the unfrozen time of fs.
   */
  lemma {:induction false} DriveExact(wt: Wait, fs: seq<Frame>)
    ensures Drive(wt, fs).Some? <==> (forall j :: 0 <= j < |fs| ==> wt.timer + Elapsed(fs[..j]) < wt.target)
    ensures Drive(wt, fs).Some? ==> Drive(wt, fs).value == Wait(wt.timer + Elapsed(fs), wt.target)
    decreases |fs|
  {
    if |fs| > 0 {
      assert Elapsed(fs[..0]) == 0.0;
      if wt.timer < wt.target {
        var next := Wait(wt.timer + Gain(fs[0]), wt.target);
        DriveExact(next, fs[1..]);
        forall j | 0 <= j < |fs| - 1
          ensures Elapsed(fs[..j + 1]) == Gain(fs[0]) + Elapsed(fs[1..][..j])
        {
          ElapsedStep(fs, j);
        }
        if Drive(wt, fs).Some? {
          forall j | 0 <= j < |fs|
            ensures wt.timer + Elapsed(fs[..j]) < wt.target
          {
            if j > 0 {
              assert next.timer + Elapsed(fs[1..][..j - 1]) < next.target;
            }
          }
        } else {
          var j :| 0 <= j < |fs| - 1 && !(next.timer + Elapsed(fs[1..][..j]) < next.target);
          assert !(wt.timer + Elapsed(fs[..j + 1]) < wt.target);
        }
      }
    }
  }

  /**
   With non-negative deltas the test reduces to the last resumption: a wait
   is still suspended after fs exactly when the time accumulated before the
   last frame of fs is short of the target.
   */
  lemma CompletesWhenReached(wt: Wait, fs: seq<Frame>)
    requires |fs| > 0
    ensures Drive(wt, fs).Some? <==> wt.timer + Elapsed(fs[..|fs| - 1]) < wt.target
  {
    DriveExact(wt, fs);
    if wt.timer + Elapsed(fs[..|fs| - 1]) < wt.target {
      forall j | 0 <= j < |fs|
        ensures wt.timer + Elapsed(fs[..j]) < wt.target
      {
        ElapsedPrefixMonotone(fs, j, |fs| - 1);
      }
    }
  }

  /**
   Pause freezes without skipping: a wait that is not due stays exactly where
   it is across any number of frozen frames, however long they last.
   */
  lemma {:induction false} FrozenFramesHold(wt: Wait, fs: seq<Frame>)
    requires !Due(wt)
    requires forall i :: 0 <= i < |fs| ==> fs[i].frozen
    ensures Drive(wt, fs) == Some(wt)
    decreases |fs|
  {
    if |fs| > 0 {
      FrozenFramesHold(wt, fs[1..]);
    }
  }

  /**
   WaitOrPause(d) finishes without yielding when d <= 0; otherwise, started in
   frame `start` and resumed on fs, it is still waiting exactly when every
   resumption found the unfrozen time so far below d.
   */
  lemma WaitOrPauseExact(target: real, start: Frame, fs: seq<Frame>)
    ensures target <= 0.0 ==> WaitOrPause(target, start, fs).None?
    ensures 0.0 < target ==>
      (WaitOrPause(target, start, fs).Some? <==>
         forall j :: 0 <= j < |fs| ==> Elapsed([start] + fs[..j]) < target)
  {
    if 0.0 < target {
      var wt := StartWait(target, start).value;
      DriveExact(wt, fs);
      forall j | 0 <= j < |fs|
        ensures Elapsed([start] + fs[..j]) == wt.timer + Elapsed(fs[..j])
      {
        assert ([start] + fs[..j])[1..] == fs[..j];
      }
    }
  }
}

=== FILE: pause_clock.dfy ===
/**
 The pause clock: one process-wide flag read by every pause-aware wait, and
 an idempotent setter that tells the audio collaborator about real changes.
 */
module PauseClock {
  import opened Wrappers
  import opened Audio
  import opened PauseAware

  datatype PauseManager = PauseManager(isPaused: bool)

  /** A pause clock starts running. */
  function Initial(): (pm: PauseManager)
    ensures !pm.isPaused
  {
    PauseManager(false)
  }

  /** The clock after a setter call and what it sent to the audio hub. */
  datatype Toggled = Toggled(manager: PauseManager, events: seq<AudioEvent>)

  /**
   SetPaused(state): no effect at all when the flag already equals state;
   otherwise the flag takes the new value and, when an audio hub exists,
   exactly one SetGlobalPause(state) notification is sent.
   */
  function SetPaused(pm: PauseManager, state: bool, hub: bool): (r: Toggled)
    ensures r.manager.isPaused == state
    ensures pm.isPaused == state ==> r == Toggled(pm, [])
    ensures pm.isPaused != state && hub ==> r.events == [SetGlobalPause(state)]
    ensures !hub ==> r.events == []
  {
    if pm.isPaused == state then Toggled(pm, [])
    else
      var next := PauseManager(state);
      Toggled(next, if hub then [SetGlobalPause(next.isPaused)] else [])
  }

  /** The frame a wait sees: frozen when a pause manager exists and is paused. */
  function FrameFor(delta: Seconds, pm: Option<PauseManager>): (f: Frame)
    ensures f.delta == delta
    ensures f.frozen <==> pm.Some? && pm.value.isPaused
  {
    Frame(delta, pm.Some? && pm.value.isPaused)
  }

  /** A run of setter calls, with the audio hub present throughout. */
  function SetPausedAll(pm: PauseManager, states: seq<bool>): Toggled
    decreases |states|
  {
    if |states| == 0 then Toggled(pm, [])
    else
      var t := SetPaused(pm, states[0], true);
      var rest := SetPausedAll(t.manager, states[1..]);
      Toggled(rest.manager, t.events + rest.events)
  }

  /**
   Over any run of setter calls the audio hub sees only pause notifications,
   each one the opposite of the previous one, the first one a change from the
   initial flag and the last one the final flag: redundant calls never reach it.
   */
  lemma {:induction false} NotificationsAlternate(pm: PauseManager, states: seq<bool>)
    ensures var r := SetPausedAll(pm, states);
      && (forall i :: 0 <= i < |r.events| ==> r.events[i].SetGlobalPause?)
      && (forall i :: 0 <= i < |r.events| - 1 ==> r.events[i].paused != r.events[i + 1].paused)
      && (|r.events| > 0 ==> r.events[0].paused != pm.isPaused)
      && (|r.events| > 0 ==> r.events[|r.events| - 1].paused == r.manager.isPaused)
      && (|r.events| == 0 ==> r.manager == pm)
      && (|states| > 0 ==> r.manager.isPaused == states[|states| - 1])
    decreases |states|
  {
    if |states| > 0 {
      var t := SetPaused(pm, states[0], true);
      NotificationsAlternate(t.manager, states[1..]);
      var rest := SetPausedAll(t.manager, states[1..]);
      if |states| == 1 {
        assert states[1..] == [];
      } else {
        assert states[1..][|states[1..]| - 1] == states[|states| - 1];
      }
      var r := SetPausedAll(pm, states);
      assert r.events == t.events + rest.events;
    }
  }
}

=== FILE: scheduler.dfy ===
/**
 The invariant of the light director and its preservation by every
 operation: at most one running cue per pad and one running loop per origin,
 each registered under its key, fresh handles, and a pad always showing either
 its base material or the material of its running, lit cue.
 */
module Scheduler {
  import opened Wrappers
  import opened PauseAware
  import opened Palette
  import opened LightStates
  import opened Lights

  /** Every handle in use was drawn before nextHandle; a handle is a cue or a loop, not both. */
  ghost predicate HandlesBounded(w: Director)
  {
    && (forall h :: h in w.cues ==> h < w.nextHandle && h !in w.loops)
    && (forall h :: h in w.loops ==> h < w.nextHandle)
    && (forall p :: p in w.lightRoutines ==> w.lightRoutines[p] < w.nextHandle)
    && (forall o :: o in w.stateLoops ==> w.stateLoops[o] < w.nextHandle)
  }

  /** A running cue is its pad's entry, and an entry that runs belongs to its pad. */
  ghost predicate CuesRegistered(w: Director)
  {
    && (forall h :: h in w.cues ==>
          w.cues[h].cue.pad in w.pads && w.cues[h].cue.pad in w.lightRoutines &&
          w.lightRoutines[w.cues[h].cue.pad] == h)
    && (forall p :: p in w.lightRoutines && w.lightRoutines[p] in w.cues ==>
          w.cues[w.lightRoutines[p]].cue.pad == p)
  }

  /** Running loops and origin entries correspond one to one; no entry is stale. */
  ghost predicate LoopsRegistered(w: Director)
  {
    && (forall h :: h in w.loops ==>
          w.loops[h].spec.origin in w.stateLoops && w.stateLoops[w.loops[h].spec.origin] == h)
    && (forall o :: o in w.stateLoops ==>
          w.stateLoops[o] in w.loops && w.loops[w.stateLoops[o]].spec.origin == o)
  }

  /** The pad's running cue, when its entry refers to one. */
  function Running(w: Director, p: int): Option<CueTask>
  {
    if p in w.lightRoutines && w.lightRoutines[p] in w.cues then Some(w.cues[w.lightRoutines[p]]) else None
  }

  /** What pad p should show: the material of its running lit cue, else its base. */
  function Shown(w: Director, p: int): Material
    requires p in w.pads
  {
    var t := Running(w, p);
    if t.Some? && t.value.phase.Holding? && t.value.cue.mat.Some? then t.value.cue.mat else w.pads[p].base
  }

  /** A pad with a base material has a renderer and shows what Shown says. */
  ghost predicate Appearance(w: Director)
  {
    forall p :: p in w.pads && w.pads[p].base.Some? ==>
      w.pads[p].hasRenderer && w.pads[p].material == Shown(w, p)
  }

  ghost predicate Inv(w: Director)
  {
    HandlesBounded(w) && CuesRegistered(w) && LoopsRegistered(w) && Appearance(w)
  }

  /** At most one running cue per pad and one running loop per origin. */
  lemma OneTaskPerKey(w: Director)
    requires Inv(w)
    ensures forall h1, h2 :: h1 in w.cues && h2 in w.cues && w.cues[h1].cue.pad == w.cues[h2].cue.pad ==> h1 == h2
    ensures forall h1, h2 :: h1 in w.loops && h2 in w.loops && w.loops[h1].spec.origin == w.loops[h2].spec.origin ==> h1 == h2
  {
  }

  function Register(w: Director, p: int, h: Handle): Director
  {
    w.(lightRoutines := w.lightRoutines[p := h])
  }

  lemma CancelInv(w: Director, p: int)
    requires Inv(w) && p in w.pads
    ensures Inv(Cancel(w, p))
  {
    var r := Cancel(w, p);
    if p in w.lightRoutines {
      forall q | q in r.pads && r.pads[q].base.Some?
        ensures r.pads[q].hasRenderer && r.pads[q].material == Shown(r, q)
      {
        if q != p {
          assert Running(r, q) == Running(w, q);
        }
      }
    }
  }

  /**
   The shape every synchronous cue start leaves behind: pad p's entry is the
   fresh handle h, the only new running cue (if any) is h on pad p, nothing
   else changed, and pad p shows what the invariant demands.
   */
  lemma SettledInv(w: Director, r: Director, p: int)
    requires Inv(w) && p in w.pads && p !in w.lightRoutines
    requires r.pads.Keys == w.pads.Keys && (forall q :: q in w.pads && q != p ==> r.pads[q] == w.pads[q])
    requires r.loops == w.loops && r.stateLoops == w.stateLoops && r.nextHandle == w.nextHandle + 1
    requires r.lightRoutines == w.lightRoutines[p := w.nextHandle]
    requires r.cues == w.cues || (w.nextHandle in r.cues && r.cues == w.cues[w.nextHandle := r.cues[w.nextHandle]] &&
                                  r.cues[w.nextHandle].cue.pad == p)
    requires r.pads[p].base.Some? ==> r.pads[p].hasRenderer && r.pads[p].material == Shown(r, p)
    ensures Inv(r)
  {
    assert Running(w, p).None?;
    forall q | q in r.pads && q != p
      ensures Running(r, q) == Running(w, q)
    {
    }
  }

  /** A cue carrying on at once on a pad without an entry, then registered, keeps the invariant. */
  lemma ProceedInv(w: Director, f: Frame, c: Cue)
    requires Inv(w) && c.pad in w.pads && c.pad !in w.lightRoutines
    ensures var h := w.nextHandle;
      Inv(Register(Proceed(w.(nextHandle := h + 1), f, h, c), c.pad, h))
  {
    var h := w.nextHandle;
    var p := c.pad;
    var w1 := w.(nextHandle := h + 1);
    var r := Register(Proceed(w1, f, h, c), p, h);
    assert Shown(w, p) == w.pads[p].base;
    var pad := w.pads[p];
    if c.mat.Some? && !pad.hasRenderer {
    } else if c.stayOn {
    } else {
      var w2 := if c.mat.Some? then SetMaterial(w1, p, c.mat) else w1;
      if c.duration > 0.0 {
        assert Running(r, p) == Some(CueTask(c, Holding(StartWait(c.duration, f).value)));
      } else {
        assert r.cues == w.cues;
      }
    }
    SettledInv(w, r, p);
  }

  /** Starting a cue on a pad without an entry, then registering it, keeps the invariant. */
  lemma StartCueInv(w: Director, f: Frame, c: Cue, delay: real)
    requires Inv(w) && c.pad in w.pads && c.pad !in w.lightRoutines
    ensures var h := w.nextHandle;
      Inv(Register(StartCue(w.(nextHandle := h + 1), f, h, c, delay), c.pad, h))
  {
    var h := w.nextHandle;
    var p := c.pad;
    if delay > 0.0 {
      var r := Register(StartCue(w.(nextHandle := h + 1), f, h, c, delay), p, h);
      assert Shown(w, p) == w.pads[p].base;
      assert Running(r, p).value.phase.Delaying?;
      SettledInv(w, r, p);
    } else {
      ProceedInv(w, f, c);
    }
  }

  lemma LightOneBySlotInv(w: Director, f: Frame, c: CueCall)
    requires Inv(w)
    ensures Inv(LightOneBySlot(w, f, c))
  {
    if c.pad in w.pads {
      var w1 := Cancel(w, c.pad);
      CancelInv(w, c.pad);
      var cue := Cue(c.pad, SafeGet(w.palette, c.slot), c.duration, c.stayOn);
      StartCueInv(w1, f, cue, c.delay);
      var x := Register(StartCue(w1.(nextHandle := w1.nextHandle + 1), f, w1.nextHandle, cue, c.delay), c.pad, w1.nextHandle);
      assert Inv(x);
      assert LightOneBySlot(w, f, c) == x;
    }
  }

  lemma StopStateLoopInv(w: Director, o: int)
    requires Inv(w)
    ensures Inv(StopStateLoop(w, o))
  {
  }

  lemma {:induction false} FirePassInv(w: Director, f: Frame, steps: seq<Step>)
    requires Inv(w)
    ensures Inv(FirePass(w, f, steps))
    decreases |steps|
  {
    if |steps| > 0 {
      var w1 := LightOneBySlot(w, f, StepCall(steps[0]));
      LightOneBySlotInv(w, f, StepCall(steps[0]));
      FirePassInv(w1, f, steps[1..]);
      assert FirePass(w, f, steps) == FirePass(w1, f, steps[1..]);
    }
  }

  /** A running loop's task may be replaced by another with the same origin. */
  lemma ReplaceLoopInv(w: Director, h: Handle, t: LoopTask)
    requires Inv(w) && h in w.loops && t.spec.origin == w.loops[h].spec.origin
    ensures Inv(w.(loops := w.loops[h := t]))
  {
  }

  /** A new loop under an unused handle may become the only entry of an origin without one. */
  lemma AddLoopInv(w: Director, h: Handle, t: LoopTask)
    requires Inv(w) && h < w.nextHandle && h !in w.cues && h !in w.loops && t.spec.origin !in w.stateLoops
    ensures Inv(w.(loops := w.loops[h := t], stateLoops := w.stateLoops[t.spec.origin := h]))
  {
  }

  lemma BumpInv(w: Director)
    requires Inv(w)
    ensures Inv(w.(nextHandle := w.nextHandle + 1))
  {
  }

  /** Another pass of a loop that is running under handle h keeps the invariant. */
  lemma RunPassInv(w: Director, f: Frame, h: Handle, spec: Loop)
    requires Inv(w) && h in w.loops && w.loops[h].spec == spec
    ensures Inv(RunPass(w, f, h, spec))
  {
    var w1 := FirePass(w, f, spec.steps);
    FirePassInv(w, f, spec.steps);
    ReplaceLoopInv(w1, h, LoopTask(spec, PassWait(spec.steps, f)));
  }

  /** A pass draws handles only from nextHandle on, so an unused older handle stays unused. */
  lemma FreshAfterPass(w: Director, f: Frame, steps: seq<Step>, h: Handle)
    requires h < w.nextHandle && h !in w.cues && h !in w.loops
    ensures var r := FirePass(w, f, steps); h < r.nextHandle && h !in r.cues && h !in r.loops
  {
  }

  /** Firing a first pass, then adding its loop under an unused handle for an origin without a loop, keeps the invariant. */
  lemma FirstPassFrom(w: Director, f: Frame, spec: Loop, h: Handle, b: Director)
    requires Inv(w) && h < w.nextHandle && h !in w.cues && h !in w.loops && spec.origin !in w.stateLoops
    requires b == FirePass(w, f, spec.steps).(
                    loops := FirePass(w, f, spec.steps).loops[h := LoopTask(spec, PassWait(spec.steps, f))],
                    stateLoops := FirePass(w, f, spec.steps).stateLoops[spec.origin := h])
    ensures Inv(b)
  {
    FirePassInv(w, f, spec.steps);
    FreshAfterPass(w, f, spec.steps, h);
    AddLoopInv(FirePass(w, f, spec.steps), h, LoopTask(spec, PassWait(spec.steps, f)));
  }

  /** The first pass of a new loop under the next handle, registered for an origin without a loop, keeps the invariant. */
  lemma FirstPassInv(w: Director, f: Frame, spec: Loop, b: Director)
    requires Inv(w) && spec.origin !in w.stateLoops
    requires b == FirePass(w.(nextHandle := w.nextHandle + 1), f, spec.steps).(
                    loops := FirePass(w.(nextHandle := w.nextHandle + 1), f, spec.steps).loops[w.nextHandle := LoopTask(spec, PassWait(spec.steps, f))],
                    stateLoops := FirePass(w.(nextHandle := w.nextHandle + 1), f, spec.steps).stateLoops[spec.origin := w.nextHandle])
    ensures Inv(b)
  {
    BumpInv(w);
    FirstPassFrom(w.(nextHandle := w.nextHandle + 1), f, spec, w.nextHandle, b);
  }

  /** Starting a loop is a first pass under the next handle, registered for its origin. */
  lemma StartLoopShape(w: Director, f: Frame, spec: Loop)
    ensures var p := FirePass(w.(nextHandle := w.nextHandle + 1), f, spec.steps);
      StartLoop(w, f, spec) == p.(loops := p.loops[w.nextHandle := LoopTask(spec, PassWait(spec.steps, f))],
                                  stateLoops := p.stateLoops[spec.origin := w.nextHandle])
  {
  }

  lemma StartLoopInv(w: Director, f: Frame, spec: Loop)
    requires Inv(w) && spec.origin !in w.stateLoops
    ensures Inv(StartLoop(w, f, spec))
  {
    StartLoopShape(w, f, spec);
    FirstPassInv(w, f, spec, StartLoop(w, f, spec));
  }

  lemma TriggerStateInv(w: Director, f: Frame, origin: int, def: Option<LightState>, loop: bool)
    requires Inv(w)
    ensures Inv(TriggerState(w, f, origin, def, loop))
  {
    if Playable(def) {
      StopStateLoopInv(w, origin);
      StartLoopInv(StopStateLoop(w, origin), f, Loop(origin, def.value.steps.value, loop));
    }
  }

  /**
   From any director satisfying the invariant, a state trigger leaves every
   known pad that its asset's steps target running the cue of the last such
   step, with that step's clamped duration and delay, and a delayed one
   still waiting; no cue of an untargeted pad is stopped.
   */
  lemma TriggerStateShowsSteps(w: Director, f: Frame, origin: int, def: Option<LightState>, loop: bool)
    requires Inv(w) && Playable(def)
    ensures var steps := def.value.steps.value; var r := TriggerState(w, f, origin, def, loop);
      && (forall i :: LastOnPad(steps, i) && steps[i].padIndex in w.pads ==> StepShown(w.palette, f, r, steps[i]))
      && (forall k :: k in w.cues && !Targets(steps, w.cues[k].cue.pad) ==> k in r.cues)
  {
    var steps := def.value.steps.value;
    TriggerStateCues(w, f, origin, def, loop);
    assert HandlesDrawn(w);
    forall k | k in w.cues && !Targets(steps, w.cues[k].cue.pad)
      ensures !ShownOnTarget(w, steps, k)
    {
      forall q | q in w.lightRoutines && Targets(steps, q)
        ensures w.lightRoutines[q] != k
      {
      }
    }
  }

  /**
   The shape a resumed cue leaves behind: its handle h is dropped or
   replaced by a task on the same pad, its pad's entry stays or is dropped,
   nothing else changed, and the pad shows what the invariant demands.
   */
  lemma ResumedInv(w: Director, r: Director, h: Handle)
    requires Inv(w) && h in w.cues
    requires var p := w.cues[h].cue.pad;
      && r.pads.Keys == w.pads.Keys && (forall q :: q in w.pads && q != p ==> r.pads[q] == w.pads[q])
      && r.loops == w.loops && r.stateLoops == w.stateLoops && r.nextHandle == w.nextHandle
      && (r.lightRoutines == w.lightRoutines || r.lightRoutines == w.lightRoutines - {p})
      && (r.cues == w.cues - {h} || (h in r.cues && r.cues == w.cues[h := r.cues[h]] && r.cues[h].cue.pad == p))
      && (h in r.cues ==> r.lightRoutines == w.lightRoutines)
      && (r.pads[p].base.Some? ==> r.pads[p].hasRenderer && r.pads[p].material == Shown(r, p))
    ensures Inv(r)
  {
    var p := w.cues[h].cue.pad;
    forall q | q in r.pads && q != p
      ensures Running(r, q) == Running(w, q)
    {
    }
  }

  /** A pending cue whose wait advanced keeps the invariant. */
  lemma PendingCueInv(w: Director, h: Handle, t: CueTask)
    requires Inv(w) && h in w.cues
    requires t.cue == w.cues[h].cue && t.phase.Holding? == w.cues[h].phase.Holding?
    ensures Inv(w.(cues := w.cues[h := t]))
  {
    var r := w.(cues := w.cues[h := t]);
    assert Running(r, t.cue.pad).value.phase.Holding? == t.phase.Holding?;
    ResumedInv(w, r, h);
  }

  /** A cue whose delay is over carries on lighting its pad and keeps the invariant. */
  lemma DelayOverInv(w: Director, f: Frame, h: Handle)
    requires Inv(w) && h in w.cues && w.cues[h].phase.Delaying?
    ensures Inv(Proceed(w.(cues := w.cues - {h}), f, h, w.cues[h].cue))
  {
    var c := w.cues[h].cue;
    var p := c.pad;
    var w1 := w.(cues := w.cues - {h});
    var r := Proceed(w1, f, h, c);
    assert Running(w1, p).None?;
    assert Shown(w, p) == w.pads[p].base;
    if c.mat.Some? && !w.pads[p].hasRenderer {
    } else if c.stayOn {
    } else if c.duration > 0.0 {
      assert Running(r, p) == Some(CueTask(c, Holding(StartWait(c.duration, f).value)));
    }
    ResumedInv(w, r, h);
  }

  /** A cue whose duration is over restores its pad and keeps the invariant. */
  lemma DurationOverInv(w: Director, h: Handle)
    requires Inv(w) && h in w.cues && w.cues[h].phase.Holding?
    ensures Inv(Restore(w.(cues := w.cues - {h}), w.cues[h].cue.pad))
  {
    var w1 := w.(cues := w.cues - {h});
    assert Running(w1, w.cues[h].cue.pad).None?;
    ResumedInv(w, Restore(w1, w.cues[h].cue.pad), h);
  }

  lemma ResumeCueInv(w: Director, f: Frame, h: Handle)
    requires Inv(w) && h in w.cues
    ensures Inv(ResumeCue(w, f, h))
  {
    var t := w.cues[h];
    match ResumeWait(t.phase.wait, f)
    case Some(wt) =>
      var t2 := t.(phase := t.phase.(wait := wt));
      PendingCueInv(w, h, t2);
      assert ResumeCue(w, f, h) == w.(cues := w.cues[h := t2]);
    case None =>
      var w1 := w.(cues := w.cues - {h});
      if t.phase.Delaying? {
        DelayOverInv(w, f, h);
        assert ResumeCue(w, f, h) == Proceed(w1, f, h, t.cue);
      } else {
        DurationOverInv(w, h);
        assert ResumeCue(w, f, h) == Restore(w1, t.cue.pad);
      }
  }

  lemma ResumeLoopInv(w: Director, f: Frame, h: Handle)
    requires Inv(w) && h in w.loops
    ensures Inv(ResumeLoop(w, f, h))
  {
    var t := w.loops[h];
    var next := if t.phase.Settling? then ResumeWait(t.phase.wait, f) else None;
    if next.None? && t.spec.loop {
      RunPassInv(w, f, h, t.spec);
    }
  }

  lemma ResumeInv(w: Director, f: Frame, h: Handle)
    requires Inv(w)
    ensures Inv(Resume(w, f, h))
  {
    if h in w.cues && w.cues[h].cue.pad in w.pads {
      ResumeCueInv(w, f, h);
    } else if h in w.loops {
      ResumeLoopInv(w, f, h);
    }
  }

  lemma {:induction false} ResumeAllInv(w: Director, f: Frame, order: seq<Handle>)
    ensures Inv(w) ==> Inv(ResumeAll(w, f, order))
    decreases |order|
  {
    if |order| > 0 && Inv(w) {
      ResumeInv(w, f, order[0]);
      ResumeAllInv(Resume(w, f, order[0]), f, order[1..]);
    }
  }

  /**
   A frame's schedule resumes, exactly once each, the coroutines that were
   already running when the frame began, that is those whose handles were
   drawn before frameStart. A coroutine started during the frame, by a press
   in the input phase or by another coroutine, ran to its first suspension
   when it was started and is first resumed in the next frame.
   */
  ghost predicate ValidSchedule(w: Director, frameStart: Handle, order: seq<Handle>)
  {
    && (forall i, j :: 0 <= i < j < |order| ==> order[i] != order[j])
    && (forall h :: h in order <==> (h in w.cues || h in w.loops) && h < frameStart)
  }

  /** No running coroutine would end its wait on its next resumption. */
  ghost predicate Idle(w: Director)
  {
    && (forall h :: h in w.cues ==> !Due(w.cues[h].phase.wait))
    && (forall h :: h in w.loops ==> w.loops[h].phase.Settling? && !Due(w.loops[h].phase.wait))
  }

  lemma {:induction false} FrozenIdleResumeAll(w: Director, f: Frame, order: seq<Handle>)
    ensures f.frozen && Idle(w) ==> ResumeAll(w, f, order) == w
    decreases |order|
  {
    if |order| > 0 && f.frozen && Idle(w) {
      var h := order[0];
      if h in w.cues && w.cues[h].cue.pad in w.pads {
        assert w.cues[h := w.cues[h]] == w.cues;
      } else if h in w.loops {
        assert w.loops[h := w.loops[h]] == w.loops;
      }
      assert Resume(w, f, h) == w;
      FrozenIdleResumeAll(w, f, order[1..]);
    }
  }

  /**
   The coroutine phase of one host frame: every coroutine that was running
   when the frame began is resumed once, in the order the host picks; one
   started since then is left as it is. The invariant survives every frame,
   and a frozen frame in which no wait is due changes nothing at all.
   */
  function Tick(w: Director, f: Frame, frameStart: Handle, order: seq<Handle>): (r: Director)
    requires ValidSchedule(w, frameStart, order)
    ensures Inv(w) ==> Inv(r)
    ensures f.frozen && Idle(w) ==> r == w
    ensures forall k :: k in w.loops && k >= frameStart ==> k in r.loops && r.loops[k] == w.loops[k]
    ensures forall k :: k in r.cues && k >= frameStart && k < w.nextHandle ==> k in w.cues && r.cues[k] == w.cues[k]
  {
    ResumeAllInv(w, f, order);
    FrozenIdleResumeAll(w, f, order);
    ResumeAll(w, f, order)
  }
}

=== FILE: wrappers.dfy ===
/** Optional values, standing for C# references that may be null. */
module Wrappers {

  datatype Option<+T> = None | Some(value: T)
}
